=== FILE: README.md ===
# envzy core, modelled in Dafny

envzy works out which parts of a Python environment a remote run needs. This project models
three pieces of it.

- **Distribution metadata** (`envzy/utils.py`). This covers:
  - name canonicalisation;
  - the name → distribution index and the file → distribution index;
  - meta-package detection, where a meta-package is a distribution made only of metadata files;
  - the requirement-name → meta-packages index;
  - the two pseudo-module filters;
  - the defensive `getmembers` walk.
- **The environment assembler** (`envzy/auto.py`). `AutoExplorer` splits the classifier's
  package records three ways. Local packages go to pinned, binary or transferable. Registry
  distributions go to pinned, incompatible platform or good. It then returns the transferable
  paths, and the name → version pins with the caller's pins winning.
- **The package records** (`envzy/packages.py`). These are frozen value types with a small
  class hierarchy, which decides what the assembler's `isinstance` filter keeps.

Everything is a pure function over immutable values:

| module | file | contents |
|---|---|---|
| `Wrappers` | `wrappers.dfy` | `Option` and `Result` |
| `Strings` | `strings.dfy` | suffix test; Python's code-point order on strings |
| `Names` | `names.dfy` | `canonize_name` |
| `OrderedDicts` | `ordered_dicts.dfy` | Python `dict`: a map plus first-insertion key order |
| `Distributions` | `distributions.dfy` | name index, file index, meta-packages, requirement index |
| `Members` | `members.dfy` | `getmembers` |
| `PseudoModules` | `pseudo_modules.dfy` | `is_wellknown_fake_module`, `is_lazy_module` |
| `Packages` | `packages.dfy` | package records and `isinstance` |
| `Auto` | `auto.dfy` | `AutoExplorer`: its defaults, `_get_packages`' filter, `get_local_module_paths`, `get_pypi_packages` |

Inputs the model takes as parameters rather than computing:

- the list of installed distributions, as `Distribution(rawName, version, requiresDist, files)`
  records in enumeration order, each with its files already located and resolved;
- the requirement-string parser, as a function `string -> Option<string>`;
- for `getmembers`, what the walk observes of the inspected object: whether it is a class, the
  class `__dict__`s along its MRO, the outcome of `dir()`, the outcome of the `__bases__` scan
  (the bases' `__dict__`s, a caught AttributeError or TypeError, or another exception), and the
  outcome of `getattr` for each name;
- the classifier's result, as a sequence of package records.

Where the code departs from what its names or docstrings suggest, the model follows the code:

- A distribution with an **empty** file list is **not** a meta-package
  (envzy/utils.py:177-181). The code's comment there gives the reason: `.egg-info` and some
  system-installed packages have no file list, so an empty list says nothing about the files.
- Canonicalisation only replaces `_` with `-`. It does not lowercase and does not fold runs of
  separators, so it is weaker than the normalisation of PEP 503.
- The `getmembers` docstring says TypeError is caught next to AttributeError. The code catches
  TypeError only around the `__bases__` scan (envzy/utils.py:78). A TypeError from `getattr`
  escapes (envzy/utils.py:89), and so does every exception other than AttributeError,
  ImportError and RuntimeError. The model returns `Failure` in that case. An exception from
  `dir()` (envzy/utils.py:69, outside every `try`) and one from the `__bases__` scan other than
  AttributeError and TypeError (envzy/utils.py:73-79) escape too, before any name is visited.
- The file index and the requirement index iterate the *values* of the name index
  (envzy/utils.py:160, 203). A distribution replaced in the name index by a later one with the
  same canonical name therefore contributes neither files nor requirements.

## Model

| member | source | states |
|---|---|---|
| `Names.Canonize` | envzy/utils.py:39-40 | Every `_` becomes `-` and every other character is kept in place. The result has the input's length and contains no `_`. |
| `Names.CanonizeIdempotent` | envzy/utils.py:39-40 | Canonicalising a canonical name changes nothing. |
| `Names.CanonizeSameIdentity` | envzy/utils.py:39-40 | Two names canonicalise alike iff they have equal length and agree at every position, up to swapping `_` and `-`. |
| `Names.CanonizeKeepsCaseAndDots` | envzy/utils.py:39-40 | Case and dots survive: `Foo_Bar` becomes `Foo-Bar`, `zope.interface` is unchanged, `Foo` and `foo` stay distinct. |
| `Distributions.Distribution.NameIsCanonical` | envzy/utils.py:47-49 | `Distribution.name` is already canonical: it contains no `_`, has the raw name's length, and canonicalising it again changes nothing. |
| `Distributions.NameIndexKeys` | envzy/utils.py:149-151 | The name index's keys are exactly the canonical names of the enumerated distributions. |
| `Distributions.NameIndex` | envzy/utils.py:149-151 | The assignment loop builds a well-formed dict: each key is listed once and exactly the keys with a value are listed. Its keys, values and key order are stated by `NameIndexKeys`, `NameIndexLastWins` and `NameIndexKeyOrder`. |
| `Distributions.NameIndexLastWins` | envzy/utils.py:149-151 | Each key holds the last enumerated distribution with that canonical name. |
| `Distributions.NameIndexKeyOrder` | envzy/utils.py:149-151 | Keys keep first-insertion order: if key i precedes key j, every distribution named by key j is preceded by one named by key i. |
| `Distributions.NamesToDistributions` | envzy/utils.py:140-153 | Each key is the canonical name of the distribution stored under it. The keys are exactly the names that occur. The later distribution wins a collision. |
| `Distributions.NameIndexCollapses` | envzy/utils.py:47-49 | Two distributions whose raw names differ only in `_` against `-` share one entry, which holds the second. |
| `Distributions.StoredDistributions` | envzy/utils.py:160 | `.values()` of the name index yields exactly the distributions stored in it, one per key, in first-insertion key order. That order decides which owner wins a file in the file index. |
| `Distributions.FileIndex` | envzy/utils.py:158-163 | Each file of the file loop maps to a visited distribution that owns it. Which one is stated by `FileIndexSpec`. |
| `Distributions.FileIndexSpec` | envzy/utils.py:158-163 | The file loop's keys are exactly the files owned by a visited distribution. Each maps to the last visited distribution that owns it. |
| `Distributions.FilesToDistributions` | envzy/utils.py:156-165 | Each file maps to a distribution kept in the name index that owns it. The full statement is `FilesToDistributionsSpec`. |
| `Distributions.FilesToDistributionsSpec` | envzy/utils.py:156-165 | The file index's keys are exactly the files of the distributions kept in the name index. Each maps to a kept distribution that owns it, stored under its own name, and the last one visited wins. |
| `Distributions.IsMetaPath` | envzy/utils.py:168-172 | True iff some path component ends with `.dist-info` or `.egg-info`. |
| `Distributions.AllMetaPaths` | envzy/utils.py:183-186 | True iff every path is a metadata path. |
| `Distributions.IsMetaPackage` | envzy/utils.py:175-186 | True iff the distribution has at least one file and all of its files are metadata paths. An empty file list gives false. |
| `Distributions.RequirementName` | envzy/utils.py:189-195 | Defined exactly when the parser accepts the string. The name it gives is the parsed name with every `_` replaced by `-` and nothing else changed. |
| `Distributions.AddRequirement` | envzy/utils.py:208-210 | Appending under one requirement's name only extends lists at their end, and only with this distribution. |
| `Distributions.AddRequirements` | envzy/utils.py:207-210 | The requirement loop of one distribution only extends lists at their end, and only with this distribution. Which names it extends is stated by `AddRequirementsSpec`. |
| `Distributions.AddRequirementsSpec` | envzy/utils.py:207-210 | One distribution's requirement loop lists it under exactly the non-empty names its requirement strings parse to. Every list under a name it does not declare is left exactly as it was. |
| `Distributions.RequirementsIndex` | envzy/utils.py:203-210 | The distribution loop only extends lists at their end, and only with visited distributions. Which ones, under which names, is stated by `RequirementsIndexSpec`. |
| `Distributions.RequirementsIndexSpec` | envzy/utils.py:203-210 | After the distribution loop, x is listed under k iff it was listed before or x is a visited meta-package declaring k. The keys are exactly those. |
| `Distributions.RequirementsToMetaPackages` | envzy/utils.py:198-212 | Every listed distribution is one kept in the name index. The full statement is `RequirementsToMetaPackagesSpec`. |
| `Distributions.RequirementsToMetaPackagesSpec` | envzy/utils.py:198-212 | x is listed under k iff x is kept in the name index, is a meta-package, and one of its requirement strings parses to the non-empty canonical name k. Keys contain no `_` and no list is empty. |
| `Members.Lookup` | envzy/utils.py:91-92 | `key in __dict__` holds iff some entry has the key, and the value found is that entry's. |
| `Members.MroLookup` | envzy/utils.py:90-97 | Finds a value iff some class `__dict__` on the chain has the key. The value comes from the first class that has it. |
| `Members.DynamicKeys` | envzy/utils.py:75-77 | Lists exactly the keys of the entries whose value is a `DynamicClassAttribute`. |
| `Members.DynamicNames` | envzy/utils.py:73-79 | The added names are exactly the dynamic-attribute keys of some base's `__dict__`. |
| `Members.InsertByNamePairs` | envzy/utils.py:103 | Inserting a pair adds exactly that pair, as a multiset. |
| `Members.InsertByNameNames` | envzy/utils.py:103 | Inserting a pair adds exactly its name to the multiset of names. |
| `Members.InsertSorted` | envzy/utils.py:103 | Inserting into a name-sorted list keeps it sorted and adds exactly that pair. |
| `Members.SortByName` | envzy/utils.py:103 | The result is sorted by name and is a permutation of the input. |
| `Members.Resolve` | envzy/utils.py:86-99 | One name's `getattr` handling. It raises iff `getattr` raises an exception other than AttributeError, ImportError and RuntimeError, and then with that exception. A kept value is justified. A RuntimeError skips the name. |
| `Members.Walk` | envzy/utils.py:84-102 | The loop reports at most one pair per visited name, so no more pairs than names; the per-name bound is `WalkPerName`. Its failure, soundness and completeness are stated by `WalkFails`, `WalkFailsFirst`, `WalkSound`, `WalkCompleteGot` and `WalkCompleteFallback`. |
| `Members.WalkFails` | envzy/utils.py:84-99 | The loop fails iff some visited name's `getattr` raises an exception the handlers do not catch. |
| `Members.WalkFailsFirst` | envzy/utils.py:84-99 | A failed loop reports the exception of the first visited name whose `getattr` raises one that is not caught; no earlier name raises such an exception. |
| `Members.WalkSound` | envzy/utils.py:84-102 | Every pair emitted by the loop names a visited name, is accepted by the predicate, and carries a justified value. A justified value is the `getattr` value or the first MRO `__dict__` value, and never comes from a name whose `getattr` raised RuntimeError. |
| `Members.WalkCompleteGot` | envzy/utils.py:84-102 | A first-visited name whose `getattr` returns an accepted value is emitted with that value. |
| `Members.WalkCompleteFallback` | envzy/utils.py:89-102 | A name whose `getattr` raises AttributeError or ImportError is emitted with the first MRO `__dict__` value, when there is one and it is accepted. |
| `Members.WalkPerName` | envzy/utils.py:84-102 | Each visit appends at most one pair, so a name is reported no more often than it occurs among the visited names. |
| `Members.WalkFirstValue` | envzy/utils.py:84-102 | A name visited once, not yet processed, whose `getattr` succeeds is reported only with the value `getattr` returned; the class `__dict__` fallback is never taken for it. |
| `Members.WalkUnique` | envzy/utils.py:86-88 | A name that no MRO `__dict__` has is emitted at most once, because a repeated visit falls back to the MRO and is dropped. |
| `Members.GetMembers` | envzy/utils.py:55-104 | Fails iff `dir()` raises, the `__bases__` scan raises something other than AttributeError or TypeError, or some visited name's `getattr` raises an uncaught exception. The first two escape with their own exception; otherwise the exception that escapes is the one raised by the first visited name whose `getattr` raises an uncaught one. When nothing escapes, the result is sorted by name, and each pair names a visited name, satisfies the predicate and carries a justified value, and no name is reported more often than `dir()` and the dynamic attributes list it. |
| `Members.GetMembersComplete` | envzy/utils.py:84-104 | Every visited name whose `getattr`, or MRO fallback after AttributeError or ImportError, yields an accepted value is reported with that value. |
| `Members.SetupError` | envzy/utils.py:69-79 | The exception escaping before the walk: `dir()`'s first, then the `__bases__` scan's when it is neither AttributeError nor TypeError. There is none iff both succeed or the scan's exception is caught. |
| `Members.WalkProcessedFallback` | envzy/utils.py:84-101 | A name met again after it was processed is emitted with the first MRO `__dict__` value, when accepted, even though `getattr` succeeds. |
| `Members.WalkRepeatFallback` | envzy/utils.py:84-102 | A name visited at least twice whose `getattr` succeeds is emitted, on the repeat visit, with the first MRO `__dict__` value when accepted. |
| `Members.GetMembersRepeat` | envzy/utils.py:84-104 | A name listed twice whose `getattr` succeeds is also reported with the first MRO `__dict__` value, when accepted. |
| `Members.GetMembersFirstValue` | envzy/utils.py:80-104 | A name listed once whose `getattr` succeeds is reported at most once, and only with the value `getattr` returned. |
| `Members.GetMembersUnique` | envzy/utils.py:84-104 | A name absent from every MRO `__dict__` is reported at most once. |
| `Members.GetMembersOfInstance` | envzy/utils.py:63-66 | For a non-class object the MRO is empty: every name is reported at most once, with the value `getattr` returned. |
| `Strings.LessEqTotal` | envzy/utils.py:103 | The string order used by the sort is total. |
| `Strings.LessEqTransitive` | envzy/utils.py:103 | The string order used by the sort is transitive. |
| `PseudoModules.Basename` | envzy/utils.py:217 | The basename contains no `/`, is a suffix of the path, and is the whole path or follows a `/`. |
| `PseudoModules.BasenameUnique` | envzy/utils.py:217 | Any slash-free suffix that is the whole path or follows a `/` is the basename. |
| `PseudoModules.IsWellknownFakeModule` | envzy/utils.py:215-220 | True iff the top-level module is `torch` and the file's last path component is `torch.ops`, `_ops.py` or `_classes.py`. |
| `PseudoModules.IsLazyModule` | envzy/utils.py:223-230 | True iff (class module, class name) is (`tensorboard.lazy`, `LazyModule`) or (`tensorflow.python.util.lazy_loader`, `KerasLazyLoader`). A class without `__module__` is never lazy. |
| `Packages.IsSubclassTransitive` | envzy/packages.py:7-34 | Subclassing among the record classes is transitive. |
| `Packages.InstancesByClass` | envzy/packages.py:7-34 | Every record is a BasePackage. The records that are LocalPackages are exactly the local packages and local distributions. PypiDistribution and BrokenModules instances are exactly those records. |
| `Auto.DefaultExplorer` | envzy/auto.py:27-32 | With no arguments: no pins, an empty stop list, the default index URL, and the running interpreter's major.minor version. |
| `Auto.FilterByClass` | envzy/auto.py:152 | Keeps exactly the records that are instances of the requested class, subclasses included. |
| `Auto.FilterKeepsOnlyRequestedClass` | envzy/auto.py:145-152 | The local filter yields local records only, never BrokenModules. The registry filter yields PypiDistributions only. Neither drops a record of its class. |
| `Auto.SplitLocal` | envzy/auto.py:41-49 | A pinned name goes to filtered; otherwise a binary package goes to binary; otherwise it goes to nonbinary. |
| `Auto.SplitLocalPartition` | envzy/auto.py:41-49 | The three local buckets together hold exactly the input, as a multiset. |
| `Auto.UnionPaths` | envzy/auto.py:89 | The union holds exactly the paths of some listed package. |
| `Auto.WithBadPaths` | envzy/auto.py:51-54 | Keeps exactly the local distributions with a non-empty `bad_paths`. |
| `Auto.GetLocalModulePaths` | envzy/auto.py:34-89 | Bucket membership is stated as an iff, with the pin checked before the binary flag. The returned paths are exactly those of the unpinned non-binary local records. The bad-path report is exactly the unpinned non-binary local distributions with bad paths, and their full `paths` are still returned. |
| `Auto.PinBeatsBinary` | envzy/auto.py:42-45 | A pinned binary local package is filtered, not binary or nonbinary. |
| `Auto.SplitPypi` | envzy/auto.py:98-106 | A pinned name goes to overridden; otherwise a distribution without server-supported tags goes to bad-platform; otherwise it goes to good. |
| `Auto.SplitPypiPartition` | envzy/auto.py:98-106 | The three registry buckets together hold exactly the input, as a multiset. |
| `Auto.VersionPins` | envzy/auto.py:127 | The keys are exactly the listed names. Each value is the version of a listed distribution with that name. |
| `Auto.VersionPinsLastWins` | envzy/auto.py:127 | Among distributions sharing a name, the last one's version is kept. |
| `Auto.GoodDistributions` | envzy/auto.py:98-106 | Keeps exactly the compatible, unpinned registry distributions, in their original order. |
| `Auto.GoodDistributionsOfFilter` | envzy/auto.py:145-152 | Filtering by class first changes neither which records are good nor their order. |
| `Auto.SplitPypiGood` | envzy/auto.py:98-106 | The good bucket is exactly the compatible, unpinned distributions, in visiting order. |
| `Auto.LastGoodIsLastCompatible` | envzy/auto.py:98-127 | For an unpinned name, the last good distribution with that name is the last compatible distribution with that name among all classified records. |
| `Auto.GetPypiPackages` | envzy/auto.py:91-129 | Bucket membership is stated as an iff. The keys of the returned map are exactly the pinned names plus the compatible distributions' names. A pinned name maps to its pin. Any other name maps to the version of the last compatible distribution with that name, counted in the classified records' order. |
| `Auto.BadPlatformNotPinned` | envzy/auto.py:101-102 | An incompatible, unpinned distribution is reported as bad-platform. Its name is not returned unless a compatible distribution has that name. |
| `Auto.DefaultsPinOnlyCompatible` | tests/test_auto.py:7-16 | With the default settings nothing is overridden. The pins are exactly the compatible distributions' names, each with one of their versions. |
| `Auto.DefaultsFilterNoLocal` | envzy/auto.py:29-32 | With the default settings no local package is filtered. |

## Left out

- Working-directory switching and temporary directories (`change_working_directory`, `tmp_cwd`) are process-global side effects with no result to model.
- Enumerating installed distributions, `locate_file`, `resolve()`, `installed-files.txt`, `get_distribution_files` and `is_exception_in_file` are left out: they are filesystem and traceback access. Each distribution's resolved file list is an input.
- `lru_cache` memoisation is not modelled: the cached functions are pure functions of their input here.
- The requirement-string parser (`packaging.requirements.Requirement`) is a foreign library. It is a parameter of the model.
- `get_stdlib_module_names`, `get_builtin_module_names` and `check_url_is_local_file` are left out: they read `sys` or the filesystem.
- Logging in `auto.py` has no behaviour to model. The buckets it logs are part of the reports.
- `_get_packages`' namespace walk, classifier call and stop list are left out. Those components are not part of this model, so the classified records are an input. The broken-records list is only logged, and the filter already excludes those records.
- The classifier's result is a frozenset; the model takes it as a sequence in iteration order. Duplicate entries do not change any stated set or map, but the order of the returned local path list is not modelled (the model returns a set).
- File-index keys are `str(fullpath)`; the model keys on the path's component sequence, assuming that distinct resolved paths print distinctly.
- The `DynamicClassAttribute` names are taken from the bases all or nothing: a `__bases__` scan whose AttributeError or TypeError is raised part-way is modelled as contributing no names, whereas Python keeps the names appended before the exception.
- An exception raised by the `getmembers` predicate itself is not modelled: the predicate is a total function.
- `getattr` is modelled as a function of the name (`Subject.getattr`), so a repeat visit of a name sees the same outcome as the first visit. Python calls `getattr` again, and a descriptor with side effects could answer differently.
- `PseudoModules.Basename` splits on `/` only, as POSIX `os.path.basename` does; the Windows separators are not modelled.
- `Members.SortByName`: stability of Python's sort, i.e. the relative order of equal names, is not stated; the contract gives sortedness and permutation only.
- `Distributions.RequirementsToMetaPackagesSpec`: states which distributions are listed under each key, not the order of the list or how many times a distribution declaring the same name twice appears.
- `Auto.GetPypiPackages`: pin keys are compared with the classified names verbatim, as the code does; no canonicalisation is applied or assumed.
- `Distributions.NamesToDistributions`: enumeration order is an input; which distribution enumerates last depends on `sys.path`, outside the model.
- envzy/classify.py, envzy/search.py and envzy/pypi.py are not part of this model; `BrokenModules` records enter only as classifier output.

=== FILE: auto.dfy ===
/** The environment assembler (`AutoExplorer`): it takes the classifier's package records, applies
    the caller's registry pins, and produces the local paths to transfer and the registry
    name-to-version pins. The classification itself is an input: `classified` is the classifier's
    result set, listed in the order it is iterated. */
module Auto {
  import opened Wrappers
  import opened Packages

  /** `sys.version_info`-style interpreter version. */
  datatype PythonVersion = PythonVersion(major: nat, minor: nat, micro: Option<nat>)

  /** The explorer's settings. */
  datatype AutoExplorer = AutoExplorer(
    pypiIndexUrl: string,
    additionalPypiPackages: map<string, string>,  // caller's pins: name -> version
    targetPython: PythonVersion,
    searchStopList: seq<string>)

  /** `AutoExplorer()` with no arguments. The default index URL and the running interpreter's
      version come from outside the model. */
  function DefaultExplorer(defaultIndexUrl: string, running: PythonVersion): (e: AutoExplorer)
    ensures e.additionalPypiPackages == map[] && e.searchStopList == []
    ensures e.pypiIndexUrl == defaultIndexUrl
    ensures e.targetPython.major == running.major && e.targetPython.minor == running.minor
    ensures e.targetPython.micro.None?
  {
    AutoExplorer(defaultIndexUrl, map[], PythonVersion(running.major, running.minor, None), [])
  }

  // ----- _get_packages -----

  /** The records that are instances of `cls`, subclasses included, in their original order. */
  function FilterByClass(packages: seq<Package>, cls: PackageClass): (r: seq<Package>)
    ensures forall p :: p in r <==> p in packages && IsInstance(p, cls)
    ensures |r| <= |packages|
  {
    if |packages| == 0 then []
    else
      var prefix, p := packages[..|packages| - 1], packages[|packages| - 1];
      assert forall q :: q in packages <==> q == p || q in prefix by {
        assert packages == prefix + [p];
      }
      FilterByClass(prefix, cls) + (if IsInstance(p, cls) then [p] else [])
  }

  /** The filter never hands a broken-modules record to either public operation, and the records
      it keeps have the fields the operation reads. */
  lemma FilterKeepsOnlyRequestedClass(packages: seq<Package>)
    ensures forall p :: p in FilterByClass(packages, LocalPackageClass) ==> p.IsLocal() && !p.BrokenModules?
    ensures forall p :: p in FilterByClass(packages, PypiDistributionClass) ==> p.PypiDistribution?
    ensures forall p :: p in packages && p.IsLocal() ==> p in FilterByClass(packages, LocalPackageClass)
    ensures forall p :: p in packages && p.PypiDistribution? ==> p in FilterByClass(packages, PypiDistributionClass)
  {
    forall p | p in packages
      ensures IsInstance(p, LocalPackageClass) <==> p.IsLocal()
      ensures IsInstance(p, PypiDistributionClass) <==> p.PypiDistribution?
    {
      InstancesByClass(p);
    }
  }

  // ----- get_local_module_paths -----

  /** The three buckets of the local-package loop, each in visiting order. */
  datatype LocalSplit = LocalSplit(filtered: seq<Package>, binary: seq<Package>, nonbinary: seq<Package>)

  /** Visit local packages in order: pinned names are filtered, then binary packages are set
      aside, the rest are non-binary. */
  function SplitLocal(packages: seq<Package>, pins: map<string, string>): (b: LocalSplit)
    requires forall p :: p in packages ==> p.LocalPackage? || p.LocalDistribution?
    ensures forall p :: p in b.filtered ==> p in packages && p.name in pins
    ensures forall p :: p in b.binary ==> p in packages && p.name !in pins && p.isBinary
    ensures forall p :: p in b.nonbinary ==> p in packages && p.name !in pins && !p.isBinary
  {
    if |packages| == 0 then LocalSplit([], [], [])
    else
      var prefix, p := packages[..|packages| - 1], packages[|packages| - 1];
      assert packages == prefix + [p];
      assert forall q :: q in prefix ==> q in packages;
      var b := SplitLocal(prefix, pins);
      assert p in packages;
      if p.name in pins then
        var r := b.(filtered := b.filtered + [p]);
        assert forall q :: q in r.filtered ==> q in b.filtered || q == p;
        r
      else if p.isBinary then
        var r := b.(binary := b.binary + [p]);
        assert forall q :: q in r.binary ==> q in b.binary || q == p;
        r
      else
        var r := b.(nonbinary := b.nonbinary + [p]);
        assert forall q :: q in r.nonbinary ==> q in b.nonbinary || q == p;
        r
  }

  /** Appending one element to one of three buckets that partition `all` partitions `all + [p]`. */
  lemma BucketsExtend<T>(a: seq<T>, b: seq<T>, c: seq<T>, all: seq<T>, p: T)
    requires multiset(a) + multiset(b) + multiset(c) == multiset(all)
    ensures multiset(a + [p]) + multiset(b) + multiset(c) == multiset(all + [p])
    ensures multiset(a) + multiset(b + [p]) + multiset(c) == multiset(all + [p])
    ensures multiset(a) + multiset(b) + multiset(c + [p]) == multiset(all + [p])
  {
    assert multiset(all + [p]) == multiset(all) + multiset{p};
    assert multiset(a + [p]) == multiset(a) + multiset{p};
    assert multiset(b + [p]) == multiset(b) + multiset{p};
    assert multiset(c + [p]) == multiset(c) + multiset{p};
  }

  /** Every local package lands in exactly one bucket. */
  lemma {:induction false} SplitLocalPartition(packages: seq<Package>, pins: map<string, string>)
    requires forall p :: p in packages ==> p.LocalPackage? || p.LocalDistribution?
    ensures var b := SplitLocal(packages, pins);
      multiset(b.filtered) + multiset(b.binary) + multiset(b.nonbinary) == multiset(packages)
  {
    if |packages| > 0 {
      var prefix, p := packages[..|packages| - 1], packages[|packages| - 1];
      assert packages == prefix + [p];
      assert forall q :: q in prefix ==> q in packages;
      SplitLocalPartition(prefix, pins);
      var b := SplitLocal(prefix, pins);
      BucketsExtend(b.filtered, b.binary, b.nonbinary, prefix, p);
      if p.name in pins {
        assert SplitLocal(packages, pins) == b.(filtered := b.filtered + [p]);
      } else if p.isBinary {
        assert SplitLocal(packages, pins) == b.(binary := b.binary + [p]);
      } else {
        assert SplitLocal(packages, pins) == b.(nonbinary := b.nonbinary + [p]);
      }
    }
  }

  /** Every path of every listed local package, merged into one set. */
  function UnionPaths(packages: seq<Package>): (r: set<string>)
    requires forall p :: p in packages ==> p.LocalPackage? || p.LocalDistribution?
    ensures forall x :: x in r <==> exists p :: p in packages && x in p.paths
  {
    if |packages| == 0 then {}
    else
      assert packages[0] in packages;
      assert forall p :: p in packages <==> p == packages[0] || p in packages[1..];
      packages[0].paths + UnionPaths(packages[1..])
  }

  /** The local distributions that report at least one bad path, in their original order. */
  function WithBadPaths(packages: seq<Package>): (r: seq<Package>)
    ensures forall p :: p in r <==> p in packages && p.LocalDistribution? && p.badPaths != {}
  {
    if |packages| == 0 then []
    else
      var rest := WithBadPaths(packages[1..]);
      assert forall p :: p in packages <==> p == packages[0] || p in packages[1..];
      (if packages[0].LocalDistribution? && packages[0].badPaths != {} then [packages[0]] else []) + rest
  }

  /** What `get_local_module_paths` computes: the buckets it logs and the paths it returns. */
  datatype LocalReport = LocalReport(split: LocalSplit, withBadPaths: seq<Package>, paths: set<string>)

  /** `get_local_module_paths` over the classifier's records. */
  function GetLocalModulePaths(e: AutoExplorer, classified: seq<Package>): (r: LocalReport)
    ensures forall p :: p in r.split.filtered <==>
      p in classified && p.IsLocal() && p.name in e.additionalPypiPackages
    ensures forall p :: p in r.split.binary <==>
      p in classified && p.IsLocal() && p.name !in e.additionalPypiPackages && p.isBinary
    ensures forall p :: p in r.split.nonbinary <==>
      p in classified && p.IsLocal() && p.name !in e.additionalPypiPackages && !p.isBinary
    ensures forall x :: x in r.paths <==>
      exists p :: p in classified && p.IsLocal() && p.name !in e.additionalPypiPackages && !p.isBinary && x in p.paths
    ensures forall p :: p in r.withBadPaths <==>
      p in classified && p.LocalDistribution? && p.name !in e.additionalPypiPackages && !p.isBinary && p.badPaths != {}
    ensures forall p :: p in r.withBadPaths ==> p.paths <= r.paths
  {
    var locals := FilterByClass(classified, LocalPackageClass);
    FilterKeepsOnlyRequestedClass(classified);
    var split := SplitLocal(locals, e.additionalPypiPackages);
    SplitLocalPartition(locals, e.additionalPypiPackages);
    assert forall p :: p in locals <==> p in split.filtered || p in split.binary || p in split.nonbinary by {
      forall p
        ensures p in locals <==> p in split.filtered || p in split.binary || p in split.nonbinary
      {
        assert p in locals <==> p in multiset(locals);
      }
    }
    LocalReport(split, WithBadPaths(split.nonbinary), UnionPaths(split.nonbinary))
  }

  /** A pin beats the binary flag: a pinned binary local package is filtered, not set aside as binary,
      and contributes no paths of its own. */
  lemma PinBeatsBinary(e: AutoExplorer, classified: seq<Package>, p: Package)
    requires p in classified && p.IsLocal() && p.isBinary && p.name in e.additionalPypiPackages
    ensures p in GetLocalModulePaths(e, classified).split.filtered
    ensures p !in GetLocalModulePaths(e, classified).split.binary
    ensures p !in GetLocalModulePaths(e, classified).split.nonbinary
  {
  }

  // ----- get_pypi_packages -----

  /** The three buckets of the registry-distribution loop, each in visiting order. */
  datatype PypiSplit = PypiSplit(overridden: seq<Package>, badPlatform: seq<Package>, good: seq<Package>)

  /** Visit registry distributions in order: pinned names are overridden, then distributions without
      a build for the server platform are set aside, the rest are good. */
  function SplitPypi(packages: seq<Package>, pins: map<string, string>): (b: PypiSplit)
    requires forall p :: p in packages ==> p.PypiDistribution?
    ensures forall p :: p in b.overridden ==> p in packages && p.name in pins
    ensures forall p :: p in b.badPlatform ==> p in packages && p.name !in pins && !p.haveServerSupportedTags
    ensures forall p :: p in b.good ==> p in packages && p.name !in pins && p.haveServerSupportedTags
  {
    if |packages| == 0 then PypiSplit([], [], [])
    else
      var prefix, p := packages[..|packages| - 1], packages[|packages| - 1];
      assert packages == prefix + [p];
      var b := SplitPypi(prefix, pins);
      assert p in packages;
      if p.name in pins then b.(overridden := b.overridden + [p])
      else if !p.haveServerSupportedTags then b.(badPlatform := b.badPlatform + [p])
      else b.(good := b.good + [p])
  }

  /** Every registry distribution lands in exactly one bucket. */
  lemma {:induction false} SplitPypiPartition(packages: seq<Package>, pins: map<string, string>)
    requires forall p :: p in packages ==> p.PypiDistribution?
    ensures var b := SplitPypi(packages, pins);
      multiset(b.overridden) + multiset(b.badPlatform) + multiset(b.good) == multiset(packages)
  {
    if |packages| > 0 {
      var prefix, p := packages[..|packages| - 1], packages[|packages| - 1];
      assert packages == prefix + [p];
      assert forall q :: q in prefix ==> q in packages;
      SplitPypiPartition(prefix, pins);
      var b := SplitPypi(prefix, pins);
      BucketsExtend(b.overridden, b.badPlatform, b.good, prefix, p);
      if p.name in pins {
        assert SplitPypi(packages, pins) == b.(overridden := b.overridden + [p]);
      } else if !p.haveServerSupportedTags {
        assert SplitPypi(packages, pins) == b.(badPlatform := b.badPlatform + [p]);
      } else {
        assert SplitPypi(packages, pins) == b.(good := b.good + [p]);
      }
    }
  }

  /** Each listed distribution's name mapped to its version; a later namesake replaces an earlier one. */
  function VersionPins(packages: seq<Package>): (r: map<string, string>)
    requires forall p :: p in packages ==> p.PypiDistribution?
    ensures forall k :: k in r <==> exists p :: p in packages && p.name == k
    ensures forall k :: k in r ==> exists p :: p in packages && p.name == k && p.version == r[k]
  {
    if |packages| == 0 then map[]
    else
      var prefix, p := packages[..|packages| - 1], packages[|packages| - 1];
      assert forall q :: q in packages <==> q == p || q in prefix by {
        assert packages == prefix + [p];
      }
      VersionPins(prefix)[p.name := p.version]
  }

  /** `v` is the version of the last registry distribution of `packages` named `k`. */
  ghost predicate LastVersion(packages: seq<Package>, k: string, v: string)
  {
    exists i :: 0 <= i < |packages| && packages[i].PypiDistribution? && packages[i].name == k &&
      packages[i].version == v && forall j :: i < j < |packages| ==> packages[j].name != k
  }

  /** Appending a distribution with another name keeps `v` the last version under `k`. */
  lemma LastVersionExtend(prefix: seq<Package>, p: Package, k: string, v: string)
    requires LastVersion(prefix, k, v) && p.name != k
    ensures LastVersion(prefix + [p], k, v)
  {
    var i :| 0 <= i < |prefix| && prefix[i].PypiDistribution? && prefix[i].name == k &&
      prefix[i].version == v && forall j :: i < j < |prefix| ==> prefix[j].name != k;
    var ps := prefix + [p];
    assert ps[i] == prefix[i];
    assert forall j :: i < j < |ps| ==> ps[j].name != k by {
      forall j | i < j < |ps|
        ensures ps[j].name != k
      {
        if j < |prefix| {
          assert ps[j] == prefix[j];
        }
      }
    }
  }

  /** When several distributions share a name, the comprehension keeps the last one's version. */
  lemma {:induction false} VersionPinsLastWins(packages: seq<Package>)
    requires forall p :: p in packages ==> p.PypiDistribution?
    ensures forall k :: k in VersionPins(packages) ==> LastVersion(packages, k, VersionPins(packages)[k])
  {
    if |packages| > 0 {
      var prefix, p := packages[..|packages| - 1], packages[|packages| - 1];
      assert packages == prefix + [p];
      assert forall q :: q in prefix ==> q in packages;
      VersionPinsLastWins(prefix);
      var before, after := VersionPins(prefix), VersionPins(packages);
      forall k | k in after
        ensures LastVersion(packages, k, after[k])
      {
        if k == p.name {
          assert packages[|packages| - 1] == p;
          assert p in packages;
        } else {
          LastVersionExtend(prefix, p, k, before[k]);
        }
      }
    }
  }

  /** A registry distribution with a build for the server platform. */
  predicate Compatible(p: Package)
  {
    p.PypiDistribution? && p.haveServerSupportedTags
  }

  /** The records the registry loop keeps as good: compatible and not pinned, in their original order. */
  function GoodDistributions(packages: seq<Package>, pins: map<string, string>): (r: seq<Package>)
    ensures forall p :: p in r <==> p in packages && Compatible(p) && p.name !in pins
  {
    if |packages| == 0 then []
    else
      var prefix, p := packages[..|packages| - 1], packages[|packages| - 1];
      assert forall q :: q in packages <==> q == p || q in prefix by {
        assert packages == prefix + [p];
      }
      GoodDistributions(prefix, pins) + (if Compatible(p) && p.name !in pins then [p] else [])
  }

  /** Filtering by class first changes nothing about which records are good, nor their order. */
  lemma {:induction false} GoodDistributionsOfFilter(packages: seq<Package>, pins: map<string, string>)
    ensures GoodDistributions(FilterByClass(packages, PypiDistributionClass), pins) == GoodDistributions(packages, pins)
  {
    if |packages| > 0 {
      var prefix, p := packages[..|packages| - 1], packages[|packages| - 1];
      var f := FilterByClass(prefix, PypiDistributionClass);
      var tail := if Compatible(p) && p.name !in pins then [p] else [];
      assert GoodDistributions(packages, pins) == GoodDistributions(prefix, pins) + tail;
      GoodDistributionsOfFilter(prefix, pins);
      InstancesByClass(p);
      if p.PypiDistribution? {
        assert FilterByClass(packages, PypiDistributionClass) == f + [p];
        assert (f + [p])[..|f + [p]| - 1] == f;
        assert GoodDistributions(f + [p], pins) == GoodDistributions(f, pins) + tail;
      } else {
        assert FilterByClass(packages, PypiDistributionClass) == f;
      }
    }
  }

  /** The good bucket of the registry loop is exactly the good records, in visiting order. */
  lemma {:induction false} SplitPypiGood(packages: seq<Package>, pins: map<string, string>)
    requires forall p :: p in packages ==> p.PypiDistribution?
    ensures SplitPypi(packages, pins).good == GoodDistributions(packages, pins)
  {
    if |packages| > 0 {
      var prefix, p := packages[..|packages| - 1], packages[|packages| - 1];
      assert forall q :: q in prefix ==> q in packages by {
        assert packages == prefix + [p];
      }
      SplitPypiGood(prefix, pins);
    }
  }

  /** `v` is the version of a compatible registry distribution named `k`, and no later compatible
      distribution of `packages` is named `k`. */
  ghost predicate LastCompatible(packages: seq<Package>, k: string, v: string)
  {
    exists i :: 0 <= i < |packages| && Compatible(packages[i]) && packages[i].name == k &&
      packages[i].version == v && forall j :: i < j < |packages| && Compatible(packages[j]) ==> packages[j].name != k
  }

  /** Dropping a trailing distribution with another name keeps `v` the last version under `k`. */
  lemma LastVersionShrink(prefix: seq<Package>, p: Package, k: string, v: string)
    requires LastVersion(prefix + [p], k, v) && p.name != k
    ensures LastVersion(prefix, k, v)
  {
    var ps := prefix + [p];
    var i :| 0 <= i < |ps| && ps[i].PypiDistribution? && ps[i].name == k &&
      ps[i].version == v && forall j :: i < j < |ps| ==> ps[j].name != k;
    assert i < |prefix| && prefix[i] == ps[i];
    forall j | i < j < |prefix|
      ensures prefix[j].name != k
    {
      assert prefix[j] == ps[j];
    }
  }

  /** Appending a record that is not a compatible distribution named `k` keeps `v` the last
      compatible version under `k`. */
  lemma LastCompatibleExtend(prefix: seq<Package>, p: Package, k: string, v: string)
    requires LastCompatible(prefix, k, v) && !(Compatible(p) && p.name == k)
    ensures LastCompatible(prefix + [p], k, v)
  {
    var i :| 0 <= i < |prefix| && Compatible(prefix[i]) && prefix[i].name == k &&
      prefix[i].version == v && forall j :: i < j < |prefix| && Compatible(prefix[j]) ==> prefix[j].name != k;
    var ps := prefix + [p];
    assert ps[i] == prefix[i];
    forall j | i < j < |ps| && Compatible(ps[j])
      ensures ps[j].name != k
    {
      if j < |prefix| {
        assert ps[j] == prefix[j];
      }
    }
  }

  /** The last good record named `k`, for a name nobody pinned, is the last compatible
      distribution named `k` among all the records. */
  lemma {:induction false} LastGoodIsLastCompatible(packages: seq<Package>, pins: map<string, string>, k: string, v: string)
    requires k !in pins && LastVersion(GoodDistributions(packages, pins), k, v)
    ensures LastCompatible(packages, k, v)
  {
    var prefix, p := packages[..|packages| - 1], packages[|packages| - 1];
    assert packages == prefix + [p];
    var g := GoodDistributions(prefix, pins);
    if Compatible(p) && p.name !in pins {
      assert GoodDistributions(packages, pins) == g + [p];
      if p.name == k {
        var gs := g + [p];
        assert gs[|gs| - 1] == p;
        var i :| 0 <= i < |gs| && gs[i].PypiDistribution? && gs[i].name == k &&
          gs[i].version == v && forall j :: i < j < |gs| ==> gs[j].name != k;
        assert i == |gs| - 1;
        assert packages[|packages| - 1] == p;
      } else {
        LastVersionShrink(g, p, k, v);
        LastGoodIsLastCompatible(prefix, pins, k, v);
        LastCompatibleExtend(prefix, p, k, v);
      }
    } else {
      assert GoodDistributions(packages, pins) == g;
      LastGoodIsLastCompatible(prefix, pins, k, v);
      LastCompatibleExtend(prefix, p, k, v);
    }
  }

  /** What `get_pypi_packages` computes: the buckets it logs and the pins it returns. */
  datatype PypiReport = PypiReport(split: PypiSplit, pins: map<string, string>)

  /** `get_pypi_packages` over the classifier's records: the good distributions' versions, overlaid
      by the caller's pins. */
  function GetPypiPackages(e: AutoExplorer, classified: seq<Package>): (r: PypiReport)
    ensures forall p :: p in r.split.overridden <==>
      p in classified && p.PypiDistribution? && p.name in e.additionalPypiPackages
    ensures forall p :: p in r.split.badPlatform <==>
      p in classified && p.PypiDistribution? && p.name !in e.additionalPypiPackages && !p.haveServerSupportedTags
    ensures forall p :: p in r.split.good <==>
      p in classified && p.PypiDistribution? && p.name !in e.additionalPypiPackages && p.haveServerSupportedTags
    ensures forall k :: k in r.pins <==>
      k in e.additionalPypiPackages ||
      exists p :: p in classified && p.PypiDistribution? && p.haveServerSupportedTags && p.name == k
    ensures forall k :: k in e.additionalPypiPackages ==> r.pins[k] == e.additionalPypiPackages[k]
    ensures forall k :: k in r.pins && k !in e.additionalPypiPackages ==>
      exists p :: p in r.split.good && p.name == k && p.version == r.pins[k]
    ensures forall k :: k in r.pins && k !in e.additionalPypiPackages ==> LastVersion(r.split.good, k, r.pins[k])
    ensures forall k :: k in r.pins && k !in e.additionalPypiPackages ==> LastCompatible(classified, k, r.pins[k])
  {
    var dists := FilterByClass(classified, PypiDistributionClass);
    FilterKeepsOnlyRequestedClass(classified);
    var split := SplitPypi(dists, e.additionalPypiPackages);
    SplitPypiPartition(dists, e.additionalPypiPackages);
    assert forall p :: p in dists <==> p in split.overridden || p in split.badPlatform || p in split.good by {
      forall p
        ensures p in dists <==> p in split.overridden || p in split.badPlatform || p in split.good
      {
        assert p in dists <==> p in multiset(dists);
      }
    }
    VersionPinsLastWins(split.good);
    SplitPypiGood(dists, e.additionalPypiPackages);
    GoodDistributionsOfFilter(classified, e.additionalPypiPackages);
    forall k | k in VersionPins(split.good) && k !in e.additionalPypiPackages
      ensures LastCompatible(classified, k, VersionPins(split.good)[k])
    {
      LastGoodIsLastCompatible(classified, e.additionalPypiPackages, k, VersionPins(split.good)[k]);
    }
    PypiReport(split, VersionPins(split.good) + e.additionalPypiPackages)
  }

  /** A registry distribution without a build for the server platform reaches the pins only
      through the caller's pins or through a compatible distribution of the same name. */
  lemma BadPlatformNotPinned(e: AutoExplorer, classified: seq<Package>, p: Package)
    requires p in classified && p.PypiDistribution? && !p.haveServerSupportedTags
    requires p.name !in e.additionalPypiPackages
    requires forall q :: q in classified && q.PypiDistribution? && q.name == p.name ==> !q.haveServerSupportedTags
    ensures p.name !in GetPypiPackages(e, classified).pins
    ensures p in GetPypiPackages(e, classified).split.badPlatform
  {
  }

  /** With the default settings nothing is pinned: the pins are exactly the compatible registry
      distributions' names, each with a version one of them carries. */
  lemma DefaultsPinOnlyCompatible(defaultIndexUrl: string, running: PythonVersion, classified: seq<Package>)
    ensures var r := GetPypiPackages(DefaultExplorer(defaultIndexUrl, running), classified);
      && (forall p :: p !in r.split.overridden)
      && (forall k :: k in r.pins <==>
            exists p :: p in classified && p.PypiDistribution? && p.haveServerSupportedTags && p.name == k)
      && (forall k :: k in r.pins ==>
            exists p :: p in classified && p.PypiDistribution? && p.haveServerSupportedTags && p.name == k && p.version == r.pins[k])
  {
    var e := DefaultExplorer(defaultIndexUrl, running);
    var r := GetPypiPackages(e, classified);
    assert e.additionalPypiPackages == map[];
    forall k | k in r.pins
      ensures exists p :: p in classified && p.PypiDistribution? && p.haveServerSupportedTags && p.name == k && p.version == r.pins[k]
    {
      var p :| p in r.split.good && p.name == k && p.version == r.pins[k];
    }
  }

  /** With the default settings no local package is filtered. */
  lemma DefaultsFilterNoLocal(defaultIndexUrl: string, running: PythonVersion, classified: seq<Package>)
    ensures forall p :: p !in GetLocalModulePaths(DefaultExplorer(defaultIndexUrl, running), classified).split.filtered
  {
  }
}

=== FILE: distributions.dfy ===
/** Reasoning over installed-distribution metadata: the name index, the file index, meta-package
    detection and the requirement-name to meta-package index. The metadata itself (the list of
    installed distributions, each one's declared requirements and owned files) is an input. */
module Distributions {
  import opened Wrappers
  import opened Strings
  import opened Names
  import opened OrderedDicts

  /** A filesystem path as its sequence of components (`Path.parts`). */
  type Path = seq<string>

  /** One installed distribution, as enumerated from the environment's metadata. */
  datatype Distribution = Distribution(
    rawName: string,                   // the name as written in the metadata
    version: string,
    requiresDist: Option<seq<string>>, // the declared requirement strings, None when absent
    files: seq<Path>)                  // the owned files, already located and resolved
  {
    /** `Distribution.name`: the canonical name. */
    function Name(): string
    {
      Canonize(rawName)
    }

    /** The name is canonical already: it has no `_`, keeps the raw name's length, and
        canonicalising it again changes nothing. */
    lemma NameIsCanonical()
      ensures Canonize(Name()) == Name()
      ensures |Name()| == |rawName| && '_' !in Name()
    {
      CanonizeIdempotent(rawName);
    }

    /** The declared requirement strings; none when the metadata declares none. */
    function Requirements(): (r: seq<string>)
      ensures requiresDist.None? ==> r == []
    {
      if requiresDist.Some? then requiresDist.value else []
    }
  }

  // ----- get_names_to_distributions -----

  /** `d` is the last distribution of `ds` whose canonical name is `k`. */
  ghost predicate LastNamed(ds: seq<Distribution>, k: string, d: Distribution)
  {
    exists i :: 0 <= i < |ds| && ds[i] == d && d.Name() == k &&
      forall j :: i < j < |ds| ==> ds[j].Name() != k
  }

  /** The name index built by enumerating `ds` in order and assigning `index[d.name] = d`. */
  function NameIndex(ds: seq<Distribution>): (r: OrderedMap<string, Distribution>)
    ensures r.Valid()
  {
    if |ds| == 0 then Empty()
    else NameIndex(ds[..|ds| - 1]).Put(ds[|ds| - 1].Name(), ds[|ds| - 1])
  }

  /** The keys of the name index are exactly the canonical names of `ds`. */
  lemma {:induction false} NameIndexKeys(ds: seq<Distribution>)
    ensures forall k :: k in NameIndex(ds).items <==> exists i :: 0 <= i < |ds| && ds[i].Name() == k
  {
    if |ds| > 0 {
      var prefix := ds[..|ds| - 1];
      NameIndexKeys(prefix);
      forall k | exists i :: 0 <= i < |ds| && ds[i].Name() == k
        ensures k in NameIndex(ds).items
      {
        var i :| 0 <= i < |ds| && ds[i].Name() == k;
        if i < |ds| - 1 {
          assert prefix[i].Name() == k;
        }
      }
      forall k | k in NameIndex(ds).items
        ensures exists i :: 0 <= i < |ds| && ds[i].Name() == k
      {
        if k != ds[|ds| - 1].Name() {
          var i :| 0 <= i < |prefix| && prefix[i].Name() == k;
          assert ds[i].Name() == k;
        }
      }
    }
  }

  /** Appending a distribution with another name keeps `v` the last one named `k`. */
  lemma LastNamedExtend(prefix: seq<Distribution>, d: Distribution, k: string, v: Distribution)
    requires LastNamed(prefix, k, v) && d.Name() != k
    ensures LastNamed(prefix + [d], k, v)
  {
    var i :| 0 <= i < |prefix| && prefix[i] == v && v.Name() == k &&
      forall j :: i < j < |prefix| ==> prefix[j].Name() != k;
    var ds := prefix + [d];
    assert ds[i] == v;
    assert forall j :: i < j < |ds| ==> ds[j].Name() != k by {
      forall j | i < j < |ds|
        ensures ds[j].Name() != k
      {
        if j < |prefix| {
          assert ds[j] == prefix[j];
        }
      }
    }
  }

  /** Under each key the name index holds the last distribution of `ds` with that canonical name. */
  lemma {:induction false} NameIndexLastWins(ds: seq<Distribution>)
    ensures forall k :: k in NameIndex(ds).items ==> LastNamed(ds, k, NameIndex(ds).items[k])
  {
    if |ds| > 0 {
      var prefix, d := ds[..|ds| - 1], ds[|ds| - 1];
      assert ds == prefix + [d];
      NameIndexLastWins(prefix);
      var p := NameIndex(prefix);
      var r := NameIndex(ds);
      assert r.items == p.items[d.Name() := d];
      forall k | k in r.items
        ensures LastNamed(ds, k, r.items[k])
      {
        if k == d.Name() {
          assert ds[|ds| - 1] == d;
        } else {
          LastNamedExtend(prefix, d, k, p.items[k]);
        }
      }
    }
  }

  /** Some distribution before position `q` of `ds` has canonical name `k`. */
  ghost predicate NamedBefore(ds: seq<Distribution>, k: string, q: int)
  {
    exists p :: 0 <= p < q && p < |ds| && ds[p].Name() == k
  }

  /** Before any distribution named by a later key of `keys` there is one named by each earlier key. */
  ghost predicate KeysInFirstOrder(ds: seq<Distribution>, keys: seq<string>)
  {
    forall i, j, q :: 0 <= i < j < |keys| && 0 <= q < |ds| && ds[q].Name() == keys[j] ==> NamedBefore(ds, keys[i], q)
  }

  lemma NamedBeforeExtend(prefix: seq<Distribution>, d: Distribution, k: string, q: int)
    requires 0 <= q <= |prefix| && NamedBefore(prefix, k, q)
    ensures NamedBefore(prefix + [d], k, q)
  {
    var p :| 0 <= p < q && prefix[p].Name() == k;
    assert (prefix + [d])[p] == prefix[p];
  }

  /** One step of the key-order argument, for a position `q` before the last distribution. */
  lemma KeyOrderEarlier(prefix: seq<Distribution>, d: Distribution, i: int, j: int, q: int)
    requires KeysInFirstOrder(prefix, NameIndex(prefix).keys)
    requires forall k :: k in NameIndex(prefix).items <==> exists p :: 0 <= p < |prefix| && prefix[p].Name() == k
    requires 0 <= i < j < |NameIndex(prefix).Put(d.Name(), d).keys|
    requires 0 <= q < |prefix| && prefix[q].Name() == NameIndex(prefix).Put(d.Name(), d).keys[j]
    ensures NamedBefore(prefix + [d], NameIndex(prefix).Put(d.Name(), d).keys[i], q)
  {
    var before, after := NameIndex(prefix), NameIndex(prefix).Put(d.Name(), d);
    assert after.keys[j] in before.items;
    assert j < |before.keys|;
    assert after.keys[i] == before.keys[i] && after.keys[j] == before.keys[j];
    NamedBeforeExtend(prefix, d, before.keys[i], q);
  }

  /** One step of the key-order argument, for the last distribution when its name is already a key. */
  lemma KeyOrderRepeated(prefix: seq<Distribution>, d: Distribution, i: int, j: int)
    requires KeysInFirstOrder(prefix, NameIndex(prefix).keys)
    requires forall k :: k in NameIndex(prefix).items <==> exists p :: 0 <= p < |prefix| && prefix[p].Name() == k
    requires d.Name() in NameIndex(prefix).items
    requires 0 <= i < j < |NameIndex(prefix).keys| && d.Name() == NameIndex(prefix).keys[j]
    ensures NamedBefore(prefix + [d], NameIndex(prefix).keys[i], |prefix|)
  {
    var before := NameIndex(prefix);
    var q :| 0 <= q < |prefix| && prefix[q].Name() == d.Name();
    NamedBeforeExtend(prefix, d, before.keys[i], q);
  }

  /** One step of the key-order argument, for the last distribution when its name is a new key. */
  lemma KeyOrderNew(prefix: seq<Distribution>, d: Distribution, i: int)
    requires forall k :: k in NameIndex(prefix).items <==> exists p :: 0 <= p < |prefix| && prefix[p].Name() == k
    requires 0 <= i < |NameIndex(prefix).keys|
    ensures NamedBefore(prefix + [d], NameIndex(prefix).keys[i], |prefix|)
  {
    var before := NameIndex(prefix);
    assert before.keys[i] in before.items;
    var p :| 0 <= p < |prefix| && prefix[p].Name() == before.keys[i];
    NamedBeforeExtend(prefix, d, before.keys[i], |prefix|);
  }

  /** One step of the key-order argument: appending `d` to `prefix`. */
  lemma KeyOrderStep(prefix: seq<Distribution>, d: Distribution, i: int, j: int, q: int)
    requires KeysInFirstOrder(prefix, NameIndex(prefix).keys)
    requires forall k :: k in NameIndex(prefix).items <==> exists p :: 0 <= p < |prefix| && prefix[p].Name() == k
    requires 0 <= i < j < |NameIndex(prefix).Put(d.Name(), d).keys|
    requires 0 <= q <= |prefix| && (prefix + [d])[q].Name() == NameIndex(prefix).Put(d.Name(), d).keys[j]
    ensures NamedBefore(prefix + [d], NameIndex(prefix).Put(d.Name(), d).keys[i], q)
  {
    var before, after := NameIndex(prefix), NameIndex(prefix).Put(d.Name(), d);
    if q < |prefix| {
      assert prefix[q] == (prefix + [d])[q];
      KeyOrderEarlier(prefix, d, i, j, q);
    } else if d.Name() in before.items {
      assert after.keys == before.keys;
      KeyOrderRepeated(prefix, d, i, j);
    } else {
      assert after.keys == before.keys + [d.Name()];
      assert after.keys[i] == before.keys[i];
      KeyOrderNew(prefix, d, i);
    }
  }

  /** Keys keep the order of their first appearance in `ds`. */
  lemma {:induction false} NameIndexKeyOrder(ds: seq<Distribution>)
    ensures KeysInFirstOrder(ds, NameIndex(ds).keys)
  {
    if |ds| > 0 {
      var prefix, d := ds[..|ds| - 1], ds[|ds| - 1];
      assert ds == prefix + [d];
      NameIndexKeyOrder(prefix);
      NameIndexKeys(prefix);
      var before, after := NameIndex(prefix), NameIndex(ds);
      assert after == before.Put(d.Name(), d);
      forall i, j, q | 0 <= i < j < |after.keys| && 0 <= q < |ds| && ds[q].Name() == after.keys[j]
        ensures NamedBefore(ds, after.keys[i], q)
      {
        KeyOrderStep(prefix, d, i, j, q);
      }
    }
  }

  /** `get_names_to_distributions()` over the enumerated distributions `ds`. */
  function NamesToDistributions(ds: seq<Distribution>): (r: map<string, Distribution>)
    ensures forall k :: k in r ==> r[k].Name() == k
    ensures forall k :: k in r <==> exists i :: 0 <= i < |ds| && ds[i].Name() == k
    ensures forall k :: k in r ==> LastNamed(ds, k, r[k])
  {
    NameIndexKeys(ds);
    NameIndexLastWins(ds);
    var r := NameIndex(ds).items;
    assert forall k :: k in r ==> r[k].Name() == k by {
      forall k | k in r
        ensures r[k].Name() == k
      {
        assert LastNamed(ds, k, r[k]);
      }
    }
    r
  }

  /** Two distributions whose names differ only in `_` against `-` share one entry, which
      holds the one enumerated later. */
  lemma NameIndexCollapses(a: Distribution, b: Distribution)
    requires Canonize(a.rawName) == Canonize(b.rawName)
    ensures NameIndex([a, b]).keys == [a.Name()]
    ensures NameIndex([a, b]).items == map[a.Name() := b]
  {
    var n := a.Name();
    assert b.Name() == n;
    assert [a, b][..1] == [a];
    NameIndexSingle(a);
    var one := NameIndex([a]);
    assert n in one.items;
    assert NameIndex([a, b]) == one.Put(n, b);
    assert one.items[n := b] == map[n := b];
  }

  /** The name index of one distribution. */
  lemma NameIndexSingle(a: Distribution)
    ensures NameIndex([a]).keys == [a.Name()]
    ensures NameIndex([a]).items == map[a.Name() := a]
  {
    assert [a][..0] == [];
    assert NameIndex([a][..0]) == Empty();
  }

  /** The values of the name index, in the order the dict yields them. */
  function StoredDistributions(ds: seq<Distribution>): (r: seq<Distribution>)
    ensures forall d :: d in r <==> d in NameIndex(ds).items.Values
    ensures |r| == |NameIndex(ds).keys|
    ensures forall i :: 0 <= i < |r| ==> r[i] == NameIndex(ds).items[NameIndex(ds).keys[i]]
  {
    var index := NameIndex(ds);
    var r := index.Values();
    assert forall d :: d in index.items.Values ==> d in r by {
      forall d | d in index.items.Values
        ensures d in r
      {
        var k :| k in index.items && index.items[k] == d;
        var i :| 0 <= i < |index.keys| && index.keys[i] == k;
        assert r[i] == d;
      }
    }
    r
  }

  // ----- get_files_to_distributions -----

  /** `d` is the last distribution of `ds` that owns file `f`. */
  ghost predicate LastOwner(ds: seq<Distribution>, f: Path, d: Distribution)
  {
    exists i :: 0 <= i < |ds| && ds[i] == d && f in d.files &&
      forall j :: i < j < |ds| ==> f !in ds[j].files
  }

  /** Records `d` as the owner of every path of `files`, replacing any earlier owner. */
  function AssignAll(index: map<Path, Distribution>, files: seq<Path>, d: Distribution): (r: map<Path, Distribution>)
    ensures forall f :: f in r <==> f in index || f in files
    ensures forall f :: f in r ==> r[f] == if f in files then d else index[f]
    decreases |files|
  {
    if |files| == 0 then index else AssignAll(index[files[0] := d], files[1..], d)
  }

  /** The file index built by visiting `ds` in order and assigning `index[file] = d` for each owned file. */
  function FileIndex(ds: seq<Distribution>): (r: map<Path, Distribution>)
    ensures forall f :: f in r ==> f in r[f].files && r[f] in ds
  {
    if |ds| == 0 then map[]
    else
      var prefix, d := ds[..|ds| - 1], ds[|ds| - 1];
      assert forall x :: x in prefix ==> x in ds by {
        assert ds == prefix + [d];
      }
      AssignAll(FileIndex(prefix), d.files, d)
  }

  /** Appending a distribution that does not own `f` keeps `v` the last owner of `f`. */
  lemma LastOwnerExtend(prefix: seq<Distribution>, d: Distribution, f: Path, v: Distribution)
    requires LastOwner(prefix, f, v) && f !in d.files
    ensures LastOwner(prefix + [d], f, v)
  {
    var i :| 0 <= i < |prefix| && prefix[i] == v && f in v.files &&
      forall j :: i < j < |prefix| ==> f !in prefix[j].files;
    var ds := prefix + [d];
    assert ds[i] == v;
    assert forall j :: i < j < |ds| ==> f !in ds[j].files by {
      forall j | i < j < |ds|
        ensures f !in ds[j].files
      {
        if j < |prefix| {
          assert ds[j] == prefix[j];
        }
      }
    }
  }

  /** The keys of the file index are exactly the files owned by some distribution of `ds`, and each
      maps to the last distribution of `ds` that owns it. */
  lemma {:induction false} FileIndexSpec(ds: seq<Distribution>)
    ensures forall f :: f in FileIndex(ds) <==> exists i :: 0 <= i < |ds| && f in ds[i].files
    ensures forall f :: f in FileIndex(ds) ==> LastOwner(ds, f, FileIndex(ds)[f])
  {
    if |ds| > 0 {
      var prefix, d := ds[..|ds| - 1], ds[|ds| - 1];
      assert ds == prefix + [d];
      FileIndexSpec(prefix);
      var p, r := FileIndex(prefix), FileIndex(ds);
      forall f | f in r
        ensures LastOwner(ds, f, r[f])
      {
        if f in d.files {
          assert ds[|ds| - 1] == d;
        } else {
          LastOwnerExtend(prefix, d, f, p[f]);
        }
      }
      forall f | exists i :: 0 <= i < |ds| && f in ds[i].files
        ensures f in r
      {
        var i :| 0 <= i < |ds| && f in ds[i].files;
        if i < |ds| - 1 {
          assert f in prefix[i].files;
        }
      }
      forall f | f in r
        ensures exists i :: 0 <= i < |ds| && f in ds[i].files
      {
        if f !in d.files {
          var i :| 0 <= i < |prefix| && f in prefix[i].files;
          assert ds[i] == prefix[i];
        }
      }
    }
  }

  /** `get_files_to_distributions()`: the file index over the name index's values. */
  function FilesToDistributions(ds: seq<Distribution>): (r: map<Path, Distribution>)
    ensures forall f :: f in r ==> f in r[f].files && r[f] in NameIndex(ds).items.Values
  {
    FileIndex(StoredDistributions(ds))
  }

  /** Every file of every distribution kept in the name index is a key of the file index, and
      nothing else is; each file maps to a distribution kept in the name index (under its own
      canonical name) that owns it. A distribution replaced in the name index by a later one with
      the same canonical name contributes no files. */
  lemma FilesToDistributionsSpec(ds: seq<Distribution>)
    ensures forall f :: f in FilesToDistributions(ds) <==>
      exists d :: d in NameIndex(ds).items.Values && f in d.files
    ensures forall f :: f in FilesToDistributions(ds) ==>
      var d := FilesToDistributions(ds)[f];
      f in d.files && d.Name() in NameIndex(ds).items && NameIndex(ds).items[d.Name()] == d
    ensures forall f :: f in FilesToDistributions(ds) ==> LastOwner(StoredDistributions(ds), f, FilesToDistributions(ds)[f])
  {
    var stored := StoredDistributions(ds);
    var index := NameIndex(ds);
    FileIndexSpec(stored);
    NameIndexLastWins(ds);
    forall f | f in FilesToDistributions(ds)
      ensures var d := FilesToDistributions(ds)[f];
        f in d.files && d.Name() in index.items && index.items[d.Name()] == d
    {
      var d := FilesToDistributions(ds)[f];
      assert LastOwner(stored, f, d);
      assert d in index.items.Values;
      var k :| k in index.items && index.items[k] == d;
      assert LastNamed(ds, k, d);
    }
    forall f | exists d :: d in index.items.Values && f in d.files
      ensures f in FilesToDistributions(ds)
    {
      var d :| d in index.items.Values && f in d.files;
      assert d in stored;
      var i :| 0 <= i < |stored| && stored[i] == d;
    }
  }

  // ----- meta-packages -----

  /** A path component names a metadata directory. */
  predicate IsMetadataDirName(part: string)
  {
    EndsWith(part, ".dist-info") || EndsWith(part, ".egg-info")
  }

  /** `is_path_package_meta`: some component of `p` is a metadata directory. */
  function IsMetaPath(p: Path): (r: bool)
    ensures r <==> exists i :: 0 <= i < |p| && IsMetadataDirName(p[i])
  {
    if |p| == 0 then false
    else IsMetadataDirName(p[0]) || (assert forall i :: 0 <= i < |p| - 1 ==> p[1..][i] == p[i + 1]; IsMetaPath(p[1..]))
  }

  /** Every path of `fs` lies in a metadata directory. */
  function AllMetaPaths(fs: seq<Path>): (r: bool)
    ensures r <==> forall i :: 0 <= i < |fs| ==> IsMetaPath(fs[i])
  {
    if |fs| == 0 then true
    else IsMetaPath(fs[0]) && (assert forall i :: 0 <= i < |fs| - 1 ==> fs[1..][i] == fs[i + 1]; AllMetaPaths(fs[1..]))
  }

  /** `check_distribution_is_meta_package`: a distribution that owns files, all of them metadata.
      A distribution with no known files is NOT a meta-package. */
  function IsMetaPackage(d: Distribution): (r: bool)
    ensures r <==> |d.files| > 0 && forall i :: 0 <= i < |d.files| ==> IsMetaPath(d.files[i])
  {
    if |d.files| == 0 then false else AllMetaPaths(d.files)
  }

  // ----- get_requirements_to_meta_packages -----

  /** `get_name_from_requirement_string`: `parse` stands for the requirement-string parser and
      yields the requirement's name, or None when the string is malformed. */
  function RequirementName(parse: string -> Option<string>, s: string): (r: Option<string>)
    ensures r.Some? <==> parse(s).Some?
    ensures r.Some? ==> '_' !in r.value && |r.value| == |parse(s).value|
    ensures r.Some? ==> forall i :: 0 <= i < |r.value| ==>
      r.value[i] == (if parse(s).value[i] == '_' then '-' else parse(s).value[i])
  {
    match parse(s)
    case None => None
    case Some(n) => Some(Canonize(n))
  }

  /** Some requirement string of `reqs` parses to the non-empty canonical name `k`. */
  ghost predicate Declares(reqs: seq<string>, k: string, parse: string -> Option<string>)
  {
    k != "" && exists i :: 0 <= i < |reqs| && RequirementName(parse, reqs[i]) == Some(k)
  }

  /** The list under `k`, or the empty list: what `defaultdict(list)` shows for `k`. */
  function Listed(m: map<string, seq<Distribution>>, k: string): seq<Distribution>
  {
    if k in m then m[k] else []
  }

  /** Appends `d` to the list under the canonical name `s` parses to, when it parses to a non-empty name. */
  function AddRequirement(index: map<string, seq<Distribution>>, d: Distribution, s: string,
                          parse: string -> Option<string>): (r: map<string, seq<Distribution>>)
    ensures forall k :: Listed(index, k) <= Listed(r, k)
    ensures forall k, x :: x in Listed(r, k) ==> x in Listed(index, k) || x == d
  {
    match RequirementName(parse, s)
    case Some(name) => if name != "" then index[name := Listed(index, name) + [d]] else index
    case None => index
  }

  /** Adds `d` under the name of each requirement string of `reqs`, in order. */
  function AddRequirements(index: map<string, seq<Distribution>>, d: Distribution, reqs: seq<string>,
                           parse: string -> Option<string>): (r: map<string, seq<Distribution>>)
    ensures forall k :: Listed(index, k) <= Listed(r, k)
    ensures forall k, x :: x in Listed(r, k) ==> x in Listed(index, k) || x == d
    decreases |reqs|
  {
    if |reqs| == 0 then index else AddRequirements(AddRequirement(index, d, reqs[0], parse), d, reqs[1..], parse)
  }

  /** Declaring through a non-empty list is declaring through its head or through its tail. */
  lemma DeclaresCons(reqs: seq<string>, k: string, parse: string -> Option<string>)
    requires |reqs| > 0
    ensures Declares(reqs, k, parse) <==>
      (k != "" && RequirementName(parse, reqs[0]) == Some(k)) || Declares(reqs[1..], k, parse)
  {
    if Declares(reqs, k, parse) {
      var i :| 0 <= i < |reqs| && RequirementName(parse, reqs[i]) == Some(k);
      if i > 0 {
        assert reqs[1..][i - 1] == reqs[i];
      }
    }
    if Declares(reqs[1..], k, parse) {
      var i :| 0 <= i < |reqs[1..]| && RequirementName(parse, reqs[1..][i]) == Some(k);
      assert reqs[i + 1] == reqs[1..][i];
    }
  }

  /** Visiting the requirement strings of `d` adds `d` under exactly the names they declare. */
  lemma {:induction false} AddRequirementsSpec(index: map<string, seq<Distribution>>, d: Distribution, reqs: seq<string>,
                                               parse: string -> Option<string>)
    ensures forall k :: k in AddRequirements(index, d, reqs, parse) <==> k in index || Declares(reqs, k, parse)
    ensures forall k, x :: x in Listed(AddRequirements(index, d, reqs, parse), k) <==>
      x in Listed(index, k) || (x == d && Declares(reqs, k, parse))
    ensures forall k :: !Declares(reqs, k, parse) ==> Listed(AddRequirements(index, d, reqs, parse), k) == Listed(index, k)
    decreases |reqs|
  {
    if |reqs| > 0 {
      var next := AddRequirement(index, d, reqs[0], parse);
      AddRequirementsSpec(next, d, reqs[1..], parse);
      forall k
        ensures Declares(reqs, k, parse) <==>
          (k != "" && RequirementName(parse, reqs[0]) == Some(k)) || Declares(reqs[1..], k, parse)
      {
        DeclaresCons(reqs, k, parse);
      }
    }
  }

  /** The loop of `get_requirements_to_meta_packages` over `ds`, starting from `index`. */
  function RequirementsIndex(index: map<string, seq<Distribution>>, ds: seq<Distribution>,
                             parse: string -> Option<string>): (r: map<string, seq<Distribution>>)
    ensures forall k :: Listed(index, k) <= Listed(r, k)
    ensures forall k, x :: x in Listed(r, k) ==> x in Listed(index, k) || x in ds
    decreases |ds|
  {
    if |ds| == 0 then index
    else
      var next := if IsMetaPackage(ds[0]) then AddRequirements(index, ds[0], ds[0].Requirements(), parse) else index;
      assert forall x :: x in ds[1..] ==> x in ds;
      RequirementsIndex(next, ds[1..], parse)
  }

  /** `x` is a meta-package of `ds` declaring `k`. */
  ghost predicate MetaDeclares(ds: seq<Distribution>, x: Distribution, k: string, parse: string -> Option<string>)
  {
    x in ds && IsMetaPackage(x) && Declares(x.Requirements(), k, parse)
  }

  /** The loop lists a distribution under `k` exactly when it was already listed there or is a
      meta-package of `ds` declaring `k`, and keeps exactly those keys. */
  lemma {:induction false} RequirementsIndexSpec(index: map<string, seq<Distribution>>, ds: seq<Distribution>,
                                                 parse: string -> Option<string>)
    ensures forall k, x :: x in Listed(RequirementsIndex(index, ds, parse), k) <==>
      x in Listed(index, k) || MetaDeclares(ds, x, k, parse)
    ensures forall k :: k in RequirementsIndex(index, ds, parse) <==>
      k in index || exists x :: MetaDeclares(ds, x, k, parse)
    decreases |ds|
  {
    if |ds| > 0 {
      var d := ds[0];
      var next := if IsMetaPackage(d) then AddRequirements(index, d, d.Requirements(), parse) else index;
      RequirementsIndexSpec(next, ds[1..], parse);
      AddRequirementsSpec(index, d, d.Requirements(), parse);
      assert forall x :: x in ds <==> x == d || x in ds[1..];
      forall k, x
        ensures MetaDeclares(ds, x, k, parse) <==>
          (x == d && IsMetaPackage(d) && Declares(d.Requirements(), k, parse)) || MetaDeclares(ds[1..], x, k, parse)
      {
      }
      forall k | exists x :: MetaDeclares(ds, x, k, parse)
        ensures k in RequirementsIndex(index, ds, parse)
      {
        var x :| MetaDeclares(ds, x, k, parse);
        if x != d {
          assert MetaDeclares(ds[1..], x, k, parse);
        }
      }
      forall k | k in RequirementsIndex(index, ds, parse) && k !in index
        ensures exists x :: MetaDeclares(ds, x, k, parse)
      {
        if k !in next {
          var x :| MetaDeclares(ds[1..], x, k, parse);
          assert MetaDeclares(ds, x, k, parse);
        } else {
          assert MetaDeclares(ds, d, k, parse);
        }
      }
    }
  }

  /** `get_requirements_to_meta_packages()` over the enumerated distributions `ds`. */
  function RequirementsToMetaPackages(ds: seq<Distribution>, parse: string -> Option<string>): (r: map<string, seq<Distribution>>)
    ensures forall k, x :: x in Listed(r, k) ==> x in NameIndex(ds).items.Values
  {
    RequirementsIndex(map[], StoredDistributions(ds), parse)
  }

  /** A distribution is listed under `k` exactly when it is kept in the name index, is a
      meta-package, and one of its requirement strings parses to a name whose canonical form is
      the non-empty `k`. Malformed requirement strings add nothing, non-meta distributions never
      appear, keys are canonical and no key has an empty list. */
  lemma RequirementsToMetaPackagesSpec(ds: seq<Distribution>, parse: string -> Option<string>)
    ensures forall k, x :: x in Listed(RequirementsToMetaPackages(ds, parse), k) <==>
      x in NameIndex(ds).items.Values && IsMetaPackage(x) && Declares(x.Requirements(), k, parse)
    ensures forall k :: k in RequirementsToMetaPackages(ds, parse) ==>
      '_' !in k && |RequirementsToMetaPackages(ds, parse)[k]| > 0
  {
    var stored := StoredDistributions(ds);
    var r := RequirementsToMetaPackages(ds, parse);
    RequirementsIndexSpec(map[], stored, parse);
    forall k | k in r
      ensures '_' !in k && |r[k]| > 0
    {
      var x :| MetaDeclares(stored, x, k, parse);
      assert x in Listed(r, k);
      var i :| 0 <= i < |x.Requirements()| && RequirementName(parse, x.Requirements()[i]) == Some(k);
    }
  }
}

=== FILE: members.dfy ===
/** `getmembers`: a defensive variant of `inspect.getmembers`. The object under inspection is
    abstracted to what the walk observes of it: whether it is a class, the `__dict__`s along its
    method resolution order, its `dir()` listing, its bases' `__dict__`s, and the outcome of
    `getattr` for each name. */
module Members {
  import opened Wrappers
  import opened Strings

  /** The outcome of `getattr(object, name)`. */
  datatype Attr<V> =
    | Got(value: V)
    | AttributeError
    | ImportError
    | RuntimeError
    | OtherError(kind: string)   // any other exception; it escapes `getmembers`

  /** A class `__dict__`, its entries in insertion order. */
  datatype ClassDict<V> = ClassDict(entries: seq<(string, V)>)

  /** The value under `key` in a class `__dict__`, if it has one; the first entry wins. */
  function Lookup<V>(entries: seq<(string, V)>, key: string): (r: Option<V>)
    ensures r.Some? <==> exists j :: 0 <= j < |entries| && entries[j].0 == key
    ensures r.Some? ==> (key, r.value) in entries
  {
    if |entries| == 0 then None
    else if entries[0].0 == key then Some(entries[0].1)
    else
      var r := Lookup(entries[1..], key);
      assert forall j :: 1 <= j < |entries| ==> entries[j] == entries[1..][j - 1];
      r
  }

  /** The outcome of scanning `object.__bases__` for dynamic class attributes. */
  datatype BasesScan<V> =
    | Scanned(dicts: seq<ClassDict<V>>)   // the bases' `__dict__`s
    | ScanCaught                          // AttributeError or TypeError: no names are added
    | ScanRaised(kind: string)            // any other exception; it escapes `getmembers`

  /** What the walk can observe of the inspected object. */
  datatype Subject<V> = Subject(
    isClass: bool,                          // `isclass(object)`
    ownDict: ClassDict<V>,                  // `object.__dict__` (used only for a class)
    mro: seq<ClassDict<V>>,                 // the `__dict__`s of `getmro(object)` (used only for a class)
    dir: Result<seq<string>, string>,       // `dir(object)`, or the exception it raises
    bases: BasesScan<V>,                    // the outcome of the scan of `object.__bases__`
    getattr: string -> Attr<V>)

  /** A `(name, value)` pair of the result. */
  datatype Member<V> = Member(name: string, value: V)

  /** The classes whose `__dict__` is consulted when `getattr` fails: for a class, its own
      `__dict__` and then those of its method resolution order; nothing otherwise. */
  function SearchOrder<V>(s: Subject<V>): seq<ClassDict<V>>
  {
    if s.isClass then [s.ownDict] + s.mro else []
  }

  /** `chain[i]` is the first class `__dict__` of `chain` that has `key`. */
  ghost predicate FirstHolder<V>(chain: seq<ClassDict<V>>, key: string, i: int)
  {
    0 <= i < |chain| && Lookup(chain[i].entries, key).Some? &&
    forall i' :: 0 <= i' < i ==> Lookup(chain[i'].entries, key).None?
  }

  /** The first holder of `key` in `chain[1..]` is the first holder in `chain` when `chain[0]` lacks it. */
  lemma FirstHolderShift<V>(chain: seq<ClassDict<V>>, key: string, i: int)
    requires |chain| > 0 && Lookup(chain[0].entries, key).None? && FirstHolder(chain[1..], key, i)
    ensures FirstHolder(chain, key, i + 1) && chain[i + 1] == chain[1..][i]
  {
    forall i' | 0 <= i' < i + 1
      ensures Lookup(chain[i'].entries, key).None?
    {
      if i' > 0 {
        assert chain[i'] == chain[1..][i' - 1];
      }
    }
  }

  /** The value under `key` in the first class `__dict__` of `chain` that has it. */
  function MroLookup<V>(chain: seq<ClassDict<V>>, key: string): (r: Option<V>)
    ensures r.Some? <==> exists i :: 0 <= i < |chain| && Lookup(chain[i].entries, key).Some?
    ensures r.Some? ==> exists i :: FirstHolder(chain, key, i) && Lookup(chain[i].entries, key) == r
  {
    if |chain| == 0 then None
    else match Lookup(chain[0].entries, key)
      case Some(v) => Some(v)
      case None =>
        var r := MroLookup(chain[1..], key);
        assert r.None? ==> forall i :: 0 <= i < |chain| ==> Lookup(chain[i].entries, key).None? by {
          if r.None? {
            forall i | 1 <= i < |chain|
              ensures Lookup(chain[i].entries, key).None?
            {
              assert chain[i] == chain[1..][i - 1];
            }
          }
        }
        assert r.Some? ==> exists i :: FirstHolder(chain, key, i) && Lookup(chain[i].entries, key) == r by {
          if r.Some? {
            var i :| FirstHolder(chain[1..], key, i) && Lookup(chain[1..][i].entries, key) == r;
            FirstHolderShift(chain, key, i);
          }
        }
        r
  }

  /** The keys of the entries of `d` whose value is a `DynamicClassAttribute`, in order. */
  function DynamicKeys<V>(entries: seq<(string, V)>, isDynamic: V -> bool): (r: seq<string>)
    ensures forall k :: k in r <==> exists j :: 0 <= j < |entries| && entries[j].0 == k && isDynamic(entries[j].1)
  {
    if |entries| == 0 then []
    else
      var rest := DynamicKeys(entries[1..], isDynamic);
      assert forall j :: 1 <= j < |entries| ==> entries[j] == entries[1..][j - 1];
      (if isDynamic(entries[0].1) then [entries[0].0] else []) + rest
  }

  /** The names added for `DynamicClassAttribute`s found in the bases' `__dict__`s. */
  function DynamicNames<V>(bases: seq<ClassDict<V>>, isDynamic: V -> bool): (r: seq<string>)
    ensures forall k :: k in r <==> exists i :: 0 <= i < |bases| && k in DynamicKeys(bases[i].entries, isDynamic)
  {
    if |bases| == 0 then []
    else
      var rest := DynamicNames(bases[1..], isDynamic);
      assert forall i :: 1 <= i < |bases| ==> bases[i] == bases[1..][i - 1];
      DynamicKeys(bases[0].entries, isDynamic) + rest
  }

  /** The names the walk visits, in order: `dir(object)`, then the dynamic class attributes. */
  function AllNames<V>(s: Subject<V>, isDynamic: V -> bool): seq<string>
  {
    (if s.dir.Success? then s.dir.value else []) + (if s.bases.Scanned? then DynamicNames(s.bases.dicts, isDynamic) else [])
  }

  /** A value passes when no predicate is given or the predicate holds of it. */
  predicate Accepts<V>(pred: Option<V -> bool>, v: V)
  {
    pred.None? || pred.value(v)
  }

  /** What one iteration of the walk does with one name. */
  datatype Step<V> = Keep(value: V) | Skip | Raise(kind: string)

  /** The fallback to the class `__dict__`s: the first one that has `key`, or skip the name. */
  function Fallback<V>(s: Subject<V>, key: string): Step<V>
  {
    match MroLookup(SearchOrder(s), key)
    case Some(v) => Keep(v)
    case None => Skip
  }

  /** One iteration: `getattr`, the duplicate check, and the exception handlers. */
  function Resolve<V>(s: Subject<V>, key: string, processed: set<string>): (r: Step<V>)
    ensures r.Raise? <==> s.getattr(key).OtherError?
    ensures r.Raise? ==> s.getattr(key) == OtherError(r.kind)
    ensures r.Keep? ==> Justified(s, Member(key, r.value))
    ensures s.getattr(key).RuntimeError? ==> r.Skip?
  {
    match s.getattr(key)
    case Got(v) => if key in processed then Fallback(s, key) else Keep(v)
    case AttributeError => Fallback(s, key)
    case ImportError => Fallback(s, key)
    case RuntimeError => Skip
    case OtherError(kind) => Raise(kind)
  }

  /** The loop over `names`, with `processed` the names already handled. */
  function Walk<V>(s: Subject<V>, pred: Option<V -> bool>, names: seq<string>, processed: set<string>): (r: Result<seq<Member<V>>, string>)
    ensures r.Success? ==> |r.value| <= |names|
  {
    if |names| == 0 then Success([])
    else
      match Resolve(s, names[0], processed)
      case Raise(kind) => Failure(kind)
      case Skip => Walk(s, pred, names[1..], processed)
      case Keep(v) =>
        var rest := Walk(s, pred, names[1..], processed + {names[0]});
        if rest.Failure? then rest
        else Success((if Accepts(pred, v) then [Member(names[0], v)] else []) + rest.value)
  }

  // ----- sorting by name -----

  /** The pairs are in ascending order of name. */
  predicate SortedByName<V>(xs: seq<Member<V>>)
  {
    forall i, j :: 0 <= i < j < |xs| ==> LessEq(xs[i].name, xs[j].name)
  }

  /** The multiset of names of `xs`. */
  function NameBag<V>(xs: seq<Member<V>>): multiset<string>
  {
    if |xs| == 0 then multiset{} else multiset{xs[0].name} + NameBag(xs[1..])
  }

  /** Insert `m` before the first pair whose name is not smaller, which keeps the sort stable. */
  function InsertByName<V(==)>(m: Member<V>, xs: seq<Member<V>>): seq<Member<V>>
  {
    if |xs| == 0 then [m]
    else if LessEq(m.name, xs[0].name) then [m] + xs
    else [xs[0]] + InsertByName(m, xs[1..])
  }

  /** An insertion adds exactly the inserted pair. */
  lemma {:induction false} InsertByNamePairs<V>(m: Member<V>, xs: seq<Member<V>>)
    ensures multiset(InsertByName(m, xs)) == multiset(xs) + multiset{m}
    decreases |xs|
  {
    if |xs| > 0 && !LessEq(m.name, xs[0].name) {
      var rest := InsertByName(m, xs[1..]);
      InsertByNamePairs(m, xs[1..]);
      assert multiset(xs) == multiset{xs[0]} + multiset(xs[1..]) by {
        assert xs == [xs[0]] + xs[1..];
      }
      assert multiset([xs[0]] + rest) == multiset{xs[0]} + multiset(rest);
    }
  }

  /** An insertion adds exactly the inserted pair's name. */
  lemma {:induction false} InsertByNameNames<V>(m: Member<V>, xs: seq<Member<V>>)
    ensures NameBag(InsertByName(m, xs)) == NameBag(xs) + multiset{m.name}
    decreases |xs|
  {
    if |xs| == 0 {
      assert NameBag([m]) == multiset{m.name} + NameBag([m][1..]);
    } else if LessEq(m.name, xs[0].name) {
      NameBagCons(m, xs);
    } else {
      var rest := InsertByName(m, xs[1..]);
      InsertByNameNames(m, xs[1..]);
      NameBagCons(xs[0], rest);
    }
  }

  /** A pair no greater than every pair of a sorted sequence can lead it. */
  lemma ConsSorted<V>(x: Member<V>, t: seq<Member<V>>)
    requires SortedByName(t)
    requires forall y :: y in t ==> LessEq(x.name, y.name)
    ensures SortedByName([x] + t)
  {
    var r := [x] + t;
    forall i, j | 0 <= i < j < |r|
      ensures LessEq(r[i].name, r[j].name)
    {
      if i == 0 {
        assert r[j] == t[j - 1];
      } else {
        assert r[i] == t[i - 1] && r[j] == t[j - 1];
      }
    }
  }

  /** The pairs of the result of an insertion are the inserted pair and the old ones. */
  lemma InsertByNameMembers<V>(m: Member<V>, xs: seq<Member<V>>)
    ensures forall y :: y in InsertByName(m, xs) ==> y == m || y in xs
  {
    var r := InsertByName(m, xs);
    InsertByNamePairs(m, xs);
    forall y | y in r
      ensures y == m || y in xs
    {
      assert y in multiset(r);
    }
  }

  lemma {:induction false} InsertByNameSorted<V>(m: Member<V>, xs: seq<Member<V>>)
    requires SortedByName(xs)
    ensures SortedByName(InsertByName(m, xs))
    decreases |xs|
  {
    if |xs| > 0 {
      var x0 := xs[0];
      if LessEq(m.name, x0.name) {
        forall y | y in xs
          ensures LessEq(m.name, y.name)
        {
          var j :| 0 <= j < |xs| && xs[j] == y;
          if j > 0 {
            LessEqTransitive(m.name, x0.name, y.name);
          }
        }
        ConsSorted(m, xs);
      } else {
        var tail := InsertByName(m, xs[1..]);
        assert SortedByName(xs[1..]) by {
          forall i, j | 0 <= i < j < |xs[1..]|
            ensures LessEq(xs[1..][i].name, xs[1..][j].name)
          {
            assert xs[1..][i] == xs[i + 1] && xs[1..][j] == xs[j + 1];
          }
        }
        InsertByNameSorted(m, xs[1..]);
        InsertByNameMembers(m, xs[1..]);
        LessEqTotal(m.name, x0.name);
        forall y | y in tail
          ensures LessEq(x0.name, y.name)
        {
          if y != m {
            var k :| 0 <= k < |xs[1..]| && xs[1..][k] == y;
            assert xs[k + 1] == y;
          }
        }
        ConsSorted(x0, tail);
      }
    }
  }

  /** Insertion into a sorted sequence, with the facts the sort needs. */
  function InsertSorted<V(==)>(m: Member<V>, xs: seq<Member<V>>): (r: seq<Member<V>>)
    requires SortedByName(xs)
    ensures SortedByName(r)
    ensures multiset(r) == multiset(xs) + multiset{m}
    ensures NameBag(r) == NameBag(xs) + multiset{m.name}
  {
    InsertByNameSorted(m, xs);
    InsertByNamePairs(m, xs);
    InsertByNameNames(m, xs);
    InsertByName(m, xs)
  }

  /** Orders the pairs by name with a stable insertion sort. */
  function SortByName<V(==)>(xs: seq<Member<V>>): (r: seq<Member<V>>)
    ensures SortedByName(r)
    ensures multiset(r) == multiset(xs)
    ensures NameBag(r) == NameBag(xs)
  {
    if |xs| == 0 then []
    else
      var rest := SortByName(xs[1..]);
      assert multiset(xs) == multiset(xs[1..]) + multiset{xs[0]} by {
        assert xs == [xs[0]] + xs[1..];
      }
      InsertSorted(xs[0], rest)
  }

  // ----- what the walk guarantees -----

  /** The value reported for `m.name` is one the walk may legitimately report: the value `getattr`
      returned, or the value found in the first class `__dict__` that has the name, the latter only
      when `getattr` succeeded or raised AttributeError or ImportError. A name whose `getattr`
      raised RuntimeError is never reported. */
  ghost predicate Justified<V>(s: Subject<V>, m: Member<V>)
  {
    match s.getattr(m.name)
    case Got(v) => m.value == v || MroLookup(SearchOrder(s), m.name) == Some(m.value)
    case AttributeError => MroLookup(SearchOrder(s), m.name) == Some(m.value)
    case ImportError => MroLookup(SearchOrder(s), m.name) == Some(m.value)
    case RuntimeError => false
    case OtherError(_) => false
  }

  /** Some name of `names` has a `getattr` that raises an exception the walk does not catch. */
  ghost predicate SomeUncaught<V>(s: Subject<V>, names: seq<string>)
  {
    exists i :: 0 <= i < |names| && s.getattr(names[i]).OtherError?
  }

  /** The exception, if any, that escapes before the walk starts: from `dir()` first, then from
      the scan of `__bases__` when it is neither AttributeError nor TypeError. */
  function SetupError<V>(s: Subject<V>): (r: Option<string>)
    ensures r.None? <==> s.dir.Success? && !s.bases.ScanRaised?
    ensures s.dir.Failure? ==> r == Some(s.dir.error)
    ensures s.dir.Success? && s.bases.ScanRaised? ==> r == Some(s.bases.kind)
  {
    if s.dir.Failure? then Some(s.dir.error)
    else if s.bases.ScanRaised? then Some(s.bases.kind)
    else None
  }

  /** The walk fails exactly when some name's `getattr` raises an uncaught exception. */
  lemma {:induction false} WalkFails<V>(s: Subject<V>, pred: Option<V -> bool>, names: seq<string>, processed: set<string>)
    ensures Walk(s, pred, names, processed).Failure? <==> SomeUncaught(s, names)
    decreases |names|
  {
    if |names| > 0 {
      var key := names[0];
      assert SomeUncaught(s, names) <==> s.getattr(key).OtherError? || SomeUncaught(s, names[1..]) by {
        if SomeUncaught(s, names) {
          var i :| 0 <= i < |names| && s.getattr(names[i]).OtherError?;
          if i > 0 {
            assert names[1..][i - 1] == names[i];
          }
        }
        if SomeUncaught(s, names[1..]) {
          var i :| 0 <= i < |names[1..]| && s.getattr(names[1..][i]).OtherError?;
          assert names[i + 1] == names[1..][i];
        }
      }
      WalkFails(s, pred, names[1..], processed);
      WalkFails(s, pred, names[1..], processed + {key});
    }
  }

  /** `names[i]` is the first name of `names` whose `getattr` raises an uncaught exception, of kind `kind`. */
  ghost predicate FirstUncaught<V>(s: Subject<V>, names: seq<string>, i: int, kind: string)
  {
    0 <= i < |names| && s.getattr(names[i]) == OtherError(kind) &&
    forall j :: 0 <= j < i ==> !s.getattr(names[j]).OtherError?
  }

  /** A failed walk reports the exception of the first name whose `getattr` raises an uncaught one. */
  lemma {:induction false} WalkFailsFirst<V>(s: Subject<V>, pred: Option<V -> bool>, names: seq<string>, processed: set<string>)
    requires Walk(s, pred, names, processed).Failure?
    ensures exists i :: FirstUncaught(s, names, i, Walk(s, pred, names, processed).error)
    decreases |names|
  {
    var key := names[0];
    var err := Walk(s, pred, names, processed).error;
    if s.getattr(key).OtherError? {
      assert FirstUncaught(s, names, 0, err);
    } else {
      var next := if Resolve(s, key, processed).Keep? then processed + {key} else processed;
      assert Walk(s, pred, names[1..], next).Failure? && Walk(s, pred, names[1..], next).error == err;
      WalkFailsFirst(s, pred, names[1..], next);
      var i :| FirstUncaught(s, names[1..], i, err);
      assert forall j :: 1 <= j < |names| ==> names[j] == names[1..][j - 1];
      assert FirstUncaught(s, names, i + 1, err);
    }
  }

  /** Every reported pair names a visited name, satisfies the predicate and is justified. */
  lemma {:induction false} WalkSound<V>(s: Subject<V>, pred: Option<V -> bool>, names: seq<string>, processed: set<string>)
    requires Walk(s, pred, names, processed).Success?
    ensures forall m :: m in Walk(s, pred, names, processed).value ==>
      m.name in names && Accepts(pred, m.value) && Justified(s, m)
    decreases |names|
  {
    if |names| > 0 {
      var key := names[0];
      match Resolve(s, key, processed)
      case Raise(_) =>
      case Skip =>
        WalkSound(s, pred, names[1..], processed);
      case Keep(v) =>
        WalkSound(s, pred, names[1..], processed + {key});
    }
  }

  /** A visited name not yet processed whose `getattr` returns an accepted value is reported with that value. */
  lemma {:induction false} WalkCompleteGot<V>(s: Subject<V>, pred: Option<V -> bool>, names: seq<string>, processed: set<string>,
                                             k: string, g: V)
    requires Walk(s, pred, names, processed).Success?
    requires k in names && k !in processed && s.getattr(k) == Got(g) && Accepts(pred, g)
    ensures Member(k, g) in Walk(s, pred, names, processed).value
    decreases |names|
  {
    var key := names[0];
    if key != k {
      assert k in names[1..];
      match Resolve(s, key, processed)
      case Raise(_) =>
      case Skip =>
        WalkCompleteGot(s, pred, names[1..], processed, k, g);
      case Keep(v) =>
        WalkCompleteGot(s, pred, names[1..], processed + {key}, k, g);
    }
  }

  /** A visited name whose `getattr` raises AttributeError or ImportError is reported with the value
      of the first class `__dict__` that has it, when that value is accepted. */
  lemma {:induction false} WalkCompleteFallback<V>(s: Subject<V>, pred: Option<V -> bool>, names: seq<string>, processed: set<string>,
                                                  k: string, v: V)
    requires Walk(s, pred, names, processed).Success?
    requires k in names && (s.getattr(k).AttributeError? || s.getattr(k).ImportError?)
    requires MroLookup(SearchOrder(s), k) == Some(v) && Accepts(pred, v)
    ensures Member(k, v) in Walk(s, pred, names, processed).value
    decreases |names|
  {
    var key := names[0];
    if key != k {
      assert k in names[1..];
      match Resolve(s, key, processed)
      case Raise(_) =>
      case Skip =>
        WalkCompleteFallback(s, pred, names[1..], processed, k, v);
      case Keep(w) =>
        WalkCompleteFallback(s, pred, names[1..], processed + {key}, k, v);
    }
  }

  /** A name no class `__dict__` has is reported at most once, and not at all once processed. */
  lemma {:induction false} WalkUnique<V>(s: Subject<V>, pred: Option<V -> bool>, names: seq<string>, processed: set<string>, k: string)
    requires Walk(s, pred, names, processed).Success?
    requires MroLookup(SearchOrder(s), k).None?
    ensures NameBag(Walk(s, pred, names, processed).value)[k] <= if k in processed then 0 else 1
    decreases |names|
  {
    if |names| > 0 {
      var key := names[0];
      match Resolve(s, key, processed)
      case Raise(_) =>
      case Skip =>
        WalkUnique(s, pred, names[1..], processed, k);
      case Keep(v) =>
        var rest := Walk(s, pred, names[1..], processed + {key});
        WalkUnique(s, pred, names[1..], processed + {key}, k);
        assert key == k ==> k !in processed;
        if Accepts(pred, v) {
          assert Walk(s, pred, names, processed).value == [Member(key, v)] + rest.value;
          NameBagCons(Member(key, v), rest.value);
        } else {
          assert Walk(s, pred, names, processed).value == rest.value;
        }
    }
  }

  /** A name visited again after it was processed is reported with the value of the first class
      `__dict__` that has it, when that value is accepted, even though `getattr` succeeds. */
  lemma {:induction false} WalkProcessedFallback<V>(s: Subject<V>, pred: Option<V -> bool>, names: seq<string>,
                                                   processed: set<string>, k: string, w: V)
    requires Walk(s, pred, names, processed).Success?
    requires k in names && k in processed && s.getattr(k).Got?
    requires MroLookup(SearchOrder(s), k) == Some(w) && Accepts(pred, w)
    ensures Member(k, w) in Walk(s, pred, names, processed).value
    decreases |names|
  {
    var key := names[0];
    if key != k {
      assert k in names[1..];
      match Resolve(s, key, processed)
      case Raise(_) =>
      case Skip =>
        WalkProcessedFallback(s, pred, names[1..], processed, k, w);
      case Keep(v) =>
        WalkProcessedFallback(s, pred, names[1..], processed + {key}, k, w);
    }
  }

  /** How many times `k` occurs in `names`. */
  function Occurrences(names: seq<string>, k: string): nat
  {
    if |names| == 0 then 0 else (if names[0] == k then 1 else 0) + Occurrences(names[1..], k)
  }

  /** A name that occurs in `names` is a member of it. */
  lemma {:induction false} OccurrencesIn(names: seq<string>, k: string)
    requires Occurrences(names, k) > 0
    ensures k in names
    decreases |names|
  {
    if names[0] != k {
      OccurrencesIn(names[1..], k);
    }
  }

  /** Two positions holding `k` make two occurrences of it. */
  lemma {:induction false} OccurrencesTwice(names: seq<string>, k: string, i: int, j: int)
    requires 0 <= i < j < |names| && names[i] == k && names[j] == k
    ensures Occurrences(names, k) >= 2
    decreases |names|
  {
    assert names[1..][j - 1] == k;
    if i == 0 {
      assert k in names[1..];
      OccurrencesOfMember(names[1..], k);
    } else {
      assert names[1..][i - 1] == k;
      OccurrencesTwice(names[1..], k, i - 1, j - 1);
    }
  }

  /** A member of `names` occurs in it. */
  lemma {:induction false} OccurrencesOfMember(names: seq<string>, k: string)
    requires k in names
    ensures Occurrences(names, k) > 0
    decreases |names|
  {
    if names[0] != k {
      assert k in names[1..];
      OccurrencesOfMember(names[1..], k);
    }
  }

  /** A name visited twice whose `getattr` succeeds is reported again, on the second visit, with
      the value of the first class `__dict__` that has it, when that value is accepted. */
  lemma {:induction false} WalkRepeatFallback<V>(s: Subject<V>, pred: Option<V -> bool>, names: seq<string>,
                                                processed: set<string>, k: string, w: V)
    requires Walk(s, pred, names, processed).Success?
    requires Occurrences(names, k) >= 2 && s.getattr(k).Got?
    requires MroLookup(SearchOrder(s), k) == Some(w) && Accepts(pred, w)
    ensures Member(k, w) in Walk(s, pred, names, processed).value
    decreases |names|
  {
    var key := names[0];
    if key == k {
      OccurrencesIn(names[1..], k);
      match Resolve(s, key, processed)
      case Keep(v) =>
        WalkProcessedFallback(s, pred, names[1..], processed + {key}, k, w);
    } else {
      match Resolve(s, key, processed)
      case Raise(_) =>
      case Skip =>
        WalkRepeatFallback(s, pred, names[1..], processed, k, w);
      case Keep(v) =>
        WalkRepeatFallback(s, pred, names[1..], processed + {key}, k, w);
    }
  }

  /** A name that does not occur in `names` is not a member of it. */
  lemma NoOccurrences(names: seq<string>, k: string)
    requires Occurrences(names, k) == 0
    ensures k !in names
  {
    if k in names {
      OccurrencesOfMember(names, k);
    }
  }

  /** The loop reports a name at most as often as it is visited. */
  lemma {:induction false} WalkPerName<V>(s: Subject<V>, pred: Option<V -> bool>, names: seq<string>,
                                         processed: set<string>, k: string)
    requires Walk(s, pred, names, processed).Success?
    ensures NameBag(Walk(s, pred, names, processed).value)[k] <= Occurrences(names, k)
    decreases |names|
  {
    if |names| > 0 {
      var key := names[0];
      match Resolve(s, key, processed)
      case Raise(_) =>
      case Skip =>
        WalkPerName(s, pred, names[1..], processed, k);
      case Keep(v) =>
        var rest := Walk(s, pred, names[1..], processed + {key});
        WalkPerName(s, pred, names[1..], processed + {key}, k);
        if Accepts(pred, v) {
          assert Walk(s, pred, names, processed).value == [Member(key, v)] + rest.value;
          NameBagCons(Member(key, v), rest.value);
        } else {
          assert Walk(s, pred, names, processed).value == rest.value;
        }
    }
  }

  /** A name visited once, not processed before, whose `getattr` succeeds is reported only with
      the value `getattr` returned, never with a value from a class `__dict__`. */
  lemma {:induction false} WalkFirstValue<V>(s: Subject<V>, pred: Option<V -> bool>, names: seq<string>,
                                            processed: set<string>, k: string, m: Member<V>)
    requires Walk(s, pred, names, processed).Success?
    requires Occurrences(names, k) == 1 && k !in processed && s.getattr(k).Got?
    ensures m in Walk(s, pred, names, processed).value && m.name == k ==> m.value == s.getattr(k).value
    decreases |names|
  {
    var key := names[0];
    if key == k {
      NoOccurrences(names[1..], k);
      match Resolve(s, key, processed)
      case Keep(v) =>
        var rest := Walk(s, pred, names[1..], processed + {key});
        WalkSound(s, pred, names[1..], processed + {key});
        assert m in rest.value ==> m.name != k;
        assert Walk(s, pred, names, processed).value == (if Accepts(pred, v) then [Member(key, v)] else []) + rest.value;
    } else {
      match Resolve(s, key, processed)
      case Raise(_) =>
      case Skip =>
        WalkFirstValue(s, pred, names[1..], processed, k, m);
      case Keep(v) =>
        WalkFirstValue(s, pred, names[1..], processed + {key}, k, m);
    }
  }

  lemma NameBagCons<V>(x: Member<V>, t: seq<Member<V>>)
    ensures NameBag([x] + t) == multiset{x.name} + NameBag(t)
  {
    assert ([x] + t)[1..] == t;
  }

  /** `getmembers(object, predicate)`: the accepted `(name, value)` pairs sorted by name, or the
      exception that escaped the walk. The walk fails exactly when the `getattr` of some visited
      name raises an exception other than AttributeError, ImportError and RuntimeError, or when
      `dir()` or the scan of `__bases__` raises one it does not catch, which then escapes first;
      otherwise the result is sorted by name, and every pair names a visited name, satisfies the
      predicate and carries a justified value. */
  function GetMembers<V(==)>(s: Subject<V>, isDynamic: V -> bool, pred: Option<V -> bool>): (r: Result<seq<Member<V>>, string>)
    ensures r.Failure? <==> SetupError(s).Some? || SomeUncaught(s, AllNames(s, isDynamic))
    ensures SetupError(s).Some? ==> r == Failure(SetupError(s).value)
    ensures SetupError(s).None? && r.Failure? ==> exists i :: FirstUncaught(s, AllNames(s, isDynamic), i, r.error)
    ensures r.Success? ==> SortedByName(r.value)
    ensures r.Success? ==> forall m :: m in r.value ==>
      m.name in AllNames(s, isDynamic) && Accepts(pred, m.value) && Justified(s, m)
    ensures r.Success? ==> forall k :: NameBag(r.value)[k] <= Occurrences(AllNames(s, isDynamic), k)
  {
    var names := AllNames(s, isDynamic);
    WalkFails(s, pred, names, {});
    if SetupError(s).Some? then Failure(SetupError(s).value)
    else match Walk(s, pred, names, {})
    case Failure(e) =>
      WalkFailsFirst(s, pred, names, {});
      Failure(e)
    case Success(xs) =>
      WalkSound(s, pred, names, {});
      forall k
        ensures NameBag(xs)[k] <= Occurrences(names, k)
      {
        WalkPerName(s, pred, names, {}, k);
      }
      var sorted := SortByName(xs);
      assert forall m :: m in sorted ==> m in xs by {
        forall m | m in sorted
          ensures m in xs
        {
          assert m in multiset(sorted);
        }
      }
      Success(sorted)
  }

  /** Completeness: a visited name whose `getattr` returns an accepted value is reported with it,
      and a visited name whose `getattr` raises AttributeError or ImportError is reported with the
      value of the first class `__dict__` that has it, when that value is accepted. */
  lemma GetMembersComplete<V>(s: Subject<V>, isDynamic: V -> bool, pred: Option<V -> bool>, k: string)
    requires GetMembers(s, isDynamic, pred).Success?
    requires k in AllNames(s, isDynamic)
    ensures s.getattr(k).Got? && Accepts(pred, s.getattr(k).value) ==>
      Member(k, s.getattr(k).value) in GetMembers(s, isDynamic, pred).value
    ensures ((s.getattr(k).AttributeError? || s.getattr(k).ImportError?) &&
             MroLookup(SearchOrder(s), k).Some? && Accepts(pred, MroLookup(SearchOrder(s), k).value)) ==>
      Member(k, MroLookup(SearchOrder(s), k).value) in GetMembers(s, isDynamic, pred).value
  {
    var names := AllNames(s, isDynamic);
    var xs := Walk(s, pred, names, {}).value;
    var sorted := GetMembers(s, isDynamic, pred).value;
    assert multiset(sorted) == multiset(xs);
    if s.getattr(k).Got? && Accepts(pred, s.getattr(k).value) {
      WalkCompleteGot(s, pred, names, {}, k, s.getattr(k).value);
      assert Member(k, s.getattr(k).value) in multiset(sorted);
    }
    if (s.getattr(k).AttributeError? || s.getattr(k).ImportError?) &&
      MroLookup(SearchOrder(s), k).Some? && Accepts(pred, MroLookup(SearchOrder(s), k).value) {
      WalkCompleteFallback(s, pred, names, {}, k, MroLookup(SearchOrder(s), k).value);
      assert Member(k, MroLookup(SearchOrder(s), k).value) in multiset(sorted);
    }
  }

  /** A name that `dir()` and the dynamic attributes list twice, and whose `getattr` succeeds, is
      also reported with the value of the first class `__dict__` that has it, when that value is
      accepted: the repeated visit re-reads the name from the MRO. */
  lemma GetMembersRepeat<V>(s: Subject<V>, isDynamic: V -> bool, pred: Option<V -> bool>, k: string, w: V)
    requires GetMembers(s, isDynamic, pred).Success?
    requires exists i, j :: 0 <= i < j < |AllNames(s, isDynamic)| && AllNames(s, isDynamic)[i] == k && AllNames(s, isDynamic)[j] == k
    requires s.getattr(k).Got? && MroLookup(SearchOrder(s), k) == Some(w) && Accepts(pred, w)
    ensures Member(k, w) in GetMembers(s, isDynamic, pred).value
  {
    var names := AllNames(s, isDynamic);
    var i, j :| 0 <= i < j < |names| && names[i] == k && names[j] == k;
    var xs := Walk(s, pred, names, {}).value;
    var sorted := GetMembers(s, isDynamic, pred).value;
    assert multiset(sorted) == multiset(xs);
    OccurrencesTwice(names, k, i, j);
    WalkRepeatFallback(s, pred, names, {}, k, w);
    assert Member(k, w) in multiset(sorted);
  }

  /** A name that no class `__dict__` along the MRO has is reported at most once, however often
      it is visited: a repeated visit falls back to the class `__dict__`s and finds nothing. */
  lemma GetMembersUnique<V>(s: Subject<V>, isDynamic: V -> bool, pred: Option<V -> bool>, k: string)
    requires GetMembers(s, isDynamic, pred).Success?
    requires MroLookup(SearchOrder(s), k).None?
    ensures NameBag(GetMembers(s, isDynamic, pred).value)[k] <= 1
  {
    WalkUnique(s, pred, AllNames(s, isDynamic), {}, k);
  }

  /** A name that `dir()` and the dynamic attributes list once, and whose `getattr` succeeds, is
      reported only with the value `getattr` returned: at most once, since it is visited once, and
      never with a value from a class `__dict__`. */
  lemma GetMembersFirstValue<V>(s: Subject<V>, isDynamic: V -> bool, pred: Option<V -> bool>, k: string, m: Member<V>)
    requires GetMembers(s, isDynamic, pred).Success?
    requires Occurrences(AllNames(s, isDynamic), k) == 1 && s.getattr(k).Got?
    ensures NameBag(GetMembers(s, isDynamic, pred).value)[k] <= 1
    ensures m in GetMembers(s, isDynamic, pred).value && m.name == k ==> m.value == s.getattr(k).value
  {
    var names := AllNames(s, isDynamic);
    var xs := Walk(s, pred, names, {}).value;
    var sorted := GetMembers(s, isDynamic, pred).value;
    assert multiset(sorted) == multiset(xs);
    WalkFirstValue(s, pred, names, {}, k, m);
    if m in sorted {
      assert m in multiset(sorted);
    }
  }

  /** For an object that is not a class, names are reported at most once, with the value `getattr` returned. */
  lemma GetMembersOfInstance<V>(s: Subject<V>, isDynamic: V -> bool, pred: Option<V -> bool>)
    requires !s.isClass
    requires GetMembers(s, isDynamic, pred).Success?
    ensures forall k :: NameBag(GetMembers(s, isDynamic, pred).value)[k] <= 1
    ensures forall m :: m in GetMembers(s, isDynamic, pred).value ==> s.getattr(m.name) == Got(m.value)
  {
    forall k
      ensures NameBag(GetMembers(s, isDynamic, pred).value)[k] <= 1
    {
      GetMembersUnique(s, isDynamic, pred, k);
    }
  }
}

=== FILE: names.dfy ===
/** Distribution-name canonicalisation (`canonize_name`). */
module Names {

  /** Is `c` one of the two separators that canonicalisation identifies? */
  predicate IsSeparator(c: char)
  {
    c == '_' || c == '-'
  }

  /** The canonical form of a distribution name: every `_` becomes `-`, nothing else changes.
      This is weaker than the normalisation of PEP 503: letters keep their case and runs of
      `.`, `-` and `_` are not folded. */
  function Canonize(name: string): (r: string)
    ensures |r| == |name|
    ensures forall i :: 0 <= i < |name| ==> r[i] == (if name[i] == '_' then '-' else name[i])
    ensures '_' !in r
  {
    if |name| == 0 then ""
    else
      var last := name[|name| - 1];
      Canonize(name[..|name| - 1]) + [if last == '_' then '-' else last]
  }

  /** Canonicalising twice is canonicalising once. */
  lemma {:induction false} CanonizeIdempotent(name: string)
    ensures Canonize(Canonize(name)) == Canonize(name)
  {
  }

  /** Two names are the same identity exactly when they have the same length and agree at every
      position, except that `_` and `-` are interchangeable. */
  lemma {:induction false} CanonizeSameIdentity(a: string, b: string)
    ensures Canonize(a) == Canonize(b) <==>
      |a| == |b| && forall i :: 0 <= i < |a| ==> a[i] == b[i] || (IsSeparator(a[i]) && IsSeparator(b[i]))
  {
    if Canonize(a) == Canonize(b) {
      forall i | 0 <= i < |a|
        ensures a[i] == b[i] || (IsSeparator(a[i]) && IsSeparator(b[i]))
      {
        assert Canonize(a)[i] == Canonize(b)[i];
      }
    }
    if |a| == |b| && forall i :: 0 <= i < |a| ==> a[i] == b[i] || (IsSeparator(a[i]) && IsSeparator(b[i])) {
      var ca, cb := Canonize(a), Canonize(b);
      assert forall i :: 0 <= i < |ca| ==> ca[i] == cb[i];
    }
  }

  /** Case and dots survive canonicalisation. */
  lemma CanonizeKeepsCaseAndDots()
    ensures Canonize("Foo_Bar") == "Foo-Bar"
    ensures Canonize("zope.interface") == "zope.interface"
    ensures Canonize("Foo") != Canonize("foo")
  {
  }
}

=== FILE: ordered_dicts.dfy ===
/** Python's `dict`: a finite map that also remembers the order in which keys were first inserted. */
module OrderedDicts {

  datatype OrderedMap<K(==), V> = OrderedMap(keys: seq<K>, items: map<K, V>)
  {
    /** The keys are listed once each, and exactly the keys of `items` are listed. */
    ghost predicate Valid()
    {
      && (forall i, j :: 0 <= i < j < |keys| ==> keys[i] != keys[j])
      && (forall k :: k in items ==> k in keys)
      && (forall i :: 0 <= i < |keys| ==> keys[i] in items)
    }

    /** Assignment under `k`: a new key goes to the end; an existing key keeps its place and gets the new value. */
    function Put(k: K, v: V): (r: OrderedMap<K, V>)
      requires Valid()
      ensures r.Valid()
      ensures r.items == items[k := v]
      ensures k in items ==> r.keys == keys
      ensures k !in items ==> r.keys == keys + [k]
    {
      if k in items then OrderedMap(keys, items[k := v]) else OrderedMap(keys + [k], items[k := v])
    }

    /** The stored values, in key order. */
    function Values(): (r: seq<V>)
      requires Valid()
      ensures |r| == |keys|
      ensures forall i :: 0 <= i < |keys| ==> r[i] == items[keys[i]]
    {
      seq(|keys|, i requires 0 <= i < |keys| => items[keys[i]])
    }
  }

  /** The empty dict. */
  function Empty<K, V>(): (r: OrderedMap<K, V>)
    ensures r.Valid() && r.items == map[]
  {
    OrderedMap([], map[])
  }
}

=== FILE: packages.dfy ===
/** The classifier's package records: frozen values compared field by field, with the small class
    hierarchy that `isinstance` filters see. */
module Packages {
  import opened Wrappers

  /** One `(module name, source path)` pair of a broken-modules record. */
  datatype ModulePath = ModulePath(moduleName: string, path: string)

  /** A package record. Every variant carries `name`; a LocalDistribution carries every field of
      a LocalPackage plus `version` and `badPaths`. */
  datatype Package =
    | BasePackage(name: string)
    | LocalPackage(name: string, paths: set<string>, consoleScripts: set<string>, isBinary: bool)
    | LocalDistribution(name: string, paths: set<string>, consoleScripts: set<string>, isBinary: bool,
                        version: string, badPaths: set<string>)
    | PypiDistribution(name: string, version: string, pypiIndexUrl: string, haveServerSupportedTags: bool)
    | BrokenModules(name: string, modulesPaths: seq<ModulePath>)
  {
    /** The record has the fields of a LocalPackage. */
    predicate IsLocal()
    {
      LocalPackage? || LocalDistribution?
    }
  }

  /** The record classes. */
  datatype PackageClass =
    | BasePackageClass
    | LocalPackageClass
    | LocalDistributionClass
    | PypiDistributionClass
    | BrokenModulesClass

  /** The direct base class within the hierarchy; BasePackage has none. */
  function Parent(c: PackageClass): Option<PackageClass>
  {
    match c
    case BasePackageClass => None
    case LocalPackageClass => Some(BasePackageClass)
    case LocalDistributionClass => Some(LocalPackageClass)
    case PypiDistributionClass => Some(BasePackageClass)
    case BrokenModulesClass => Some(BasePackageClass)
  }

  /** The number of steps from `c` up to BasePackage. */
  function Depth(c: PackageClass): nat
  {
    match c
    case BasePackageClass => 0
    case LocalDistributionClass => 2
    case _ => 1
  }

  /** `issubclass(c, d)`: `d` is `c` or one of its ancestors. */
  predicate IsSubclass(c: PackageClass, d: PackageClass)
    decreases Depth(c)
  {
    c == d || (Parent(c).Some? && IsSubclass(Parent(c).value, d))
  }

  /** The class a record was built as. */
  function ClassOf(p: Package): PackageClass
  {
    match p
    case BasePackage(_) => BasePackageClass
    case LocalPackage(_, _, _, _) => LocalPackageClass
    case LocalDistribution(_, _, _, _, _, _) => LocalDistributionClass
    case PypiDistribution(_, _, _, _) => PypiDistributionClass
    case BrokenModules(_, _) => BrokenModulesClass
  }

  /** The record is an instance of `cls` or of one of its subclasses. */
  predicate IsInstance(p: Package, cls: PackageClass)
  {
    IsSubclass(ClassOf(p), cls)
  }

  /** Subclassing is transitive. */
  lemma {:induction false} IsSubclassTransitive(a: PackageClass, b: PackageClass, c: PackageClass)
    requires IsSubclass(a, b) && IsSubclass(b, c)
    ensures IsSubclass(a, c)
    decreases Depth(a)
  {
    if a != b {
      IsSubclassTransitive(Parent(a).value, b, c);
    }
  }

  /** What each `isinstance` filter keeps: every record is a BasePackage; the LocalPackage filter
      keeps exactly the local packages and local distributions; the PypiDistribution filter keeps
      exactly the registry distributions; only broken-modules records pass the BrokenModules filter. */
  lemma InstancesByClass(p: Package)
    ensures IsInstance(p, BasePackageClass)
    ensures IsInstance(p, LocalPackageClass) <==> p.IsLocal()
    ensures IsInstance(p, LocalDistributionClass) <==> p.LocalDistribution?
    ensures IsInstance(p, PypiDistributionClass) <==> p.PypiDistribution?
    ensures IsInstance(p, BrokenModulesClass) <==> p.BrokenModules?
  {
    match p
    case LocalDistribution(_, _, _, _, _, _) =>
      assert IsSubclass(LocalPackageClass, BasePackageClass);
    case _ =>
  }
}

=== FILE: pseudo_modules.dfy ===
/** Filters for objects that look like modules but must not be followed: synthetic submodules
    of one large framework and lazy-loading proxies. */
module PseudoModules {
  import opened Wrappers
  import opened Strings

  /** `os.path.basename` for POSIX paths: everything after the last `/`. */
  function Basename(path: string): (r: string)
    ensures '/' !in r
    ensures EndsWith(path, r)
    ensures |r| < |path| ==> path[|path| - |r| - 1] == '/'
  {
    if |path| == 0 then ""
    else if path[|path| - 1] == '/' then ""
    else
      var prefix := path[..|path| - 1];
      var r := Basename(prefix) + [path[|path| - 1]];
      assert path == prefix + [path[|path| - 1]];
      r
  }

  /** `b` is the last component of `path`: a slash-free suffix that is the whole path or follows a `/`. */
  predicate IsLastComponent(path: string, b: string)
  {
    '/' !in b && EndsWith(path, b) && (|b| == |path| || path[|path| - |b| - 1] == '/')
  }

  /** The basename is the one last component of a path. */
  lemma {:induction false} BasenameUnique(path: string, b: string)
    requires IsLastComponent(path, b)
    ensures Basename(path) == b
  {
    var r := Basename(path);
    assert |r| == |b|;
  }

  /** The file names of the synthetic submodules generated by `torch`. */
  const FakeTorchBasenames: seq<string> := ["torch.ops", "_ops.py", "_classes.py"]

  /** `is_wellknown_fake_module`: the module belongs to `torch` and the last component of its file
      path is `torch.ops`, `_ops.py` or `_classes.py`. */
  function IsWellknownFakeModule(topLevelModuleName: string, moduleFilename: string): (r: bool)
    ensures r <==> (topLevelModuleName == "torch" &&
                    exists b :: b in FakeTorchBasenames && IsLastComponent(moduleFilename, b))
  {
    var r := topLevelModuleName == "torch" && Basename(moduleFilename) in FakeTorchBasenames;
    assert forall b :: b in FakeTorchBasenames && IsLastComponent(moduleFilename, b) ==> Basename(moduleFilename) == b by {
      forall b | b in FakeTorchBasenames && IsLastComponent(moduleFilename, b)
        ensures Basename(moduleFilename) == b
      {
        BasenameUnique(moduleFilename, b);
      }
    }
    assert IsLastComponent(moduleFilename, Basename(moduleFilename));
    r
  }

  /** The (class module, class name) pairs of the known lazy-loading module proxies. */
  const LazyModuleClasses: set<(Option<string>, string)> :=
    {(Some("tensorboard.lazy"), "LazyModule"), (Some("tensorflow.python.util.lazy_loader"), "KerasLazyLoader")}

  /** `is_lazy_module`: `classModule` is the module's class `__module__` (None when the class has
      none) and `className` the class's `__name__`. */
  function IsLazyModule(classModule: Option<string>, className: string): (r: bool)
    ensures r <==> (classModule, className) in LazyModuleClasses
    ensures r ==> classModule.Some?
  {
    (classModule == Some("tensorboard.lazy") && className == "LazyModule")
    || (classModule == Some("tensorflow.python.util.lazy_loader") && className == "KerasLazyLoader")
  }
}

=== FILE: strings.dfy ===
/** The few `str` operations the model needs, with Python's meaning. */
module Strings {

  /** `s` ends with `suffix`. */
  predicate EndsWith(s: string, suffix: string)
  {
    |suffix| <= |s| && s[|s| - |suffix|..] == suffix
  }

  /** `a <= b` on Python strings: lexicographic by code point. */
  predicate LessEq(a: string, b: string)
  {
    if |a| == 0 then true
    else if |b| == 0 then false
    else if a[0] != b[0] then a[0] < b[0]
    else LessEq(a[1..], b[1..])
  }

  lemma {:induction false} LessEqTotal(a: string, b: string)
    ensures LessEq(a, b) || LessEq(b, a)
  {
    if |a| > 0 && |b| > 0 && a[0] == b[0] {
      LessEqTotal(a[1..], b[1..]);
    }
  }

  lemma {:induction false} LessEqTransitive(a: string, b: string, c: string)
    requires LessEq(a, b) && LessEq(b, c)
    ensures LessEq(a, c)
  {
    if |a| > 0 && |b| > 0 && |c| > 0 && a[0] == b[0] && b[0] == c[0] {
      LessEqTransitive(a[1..], b[1..], c[1..]);
    }
  }
}

=== FILE: wrappers.dfy ===
/** Failure-compatible wrappers shared by the whole model. */
module Wrappers {

  /** A value that may be absent (Python's `Optional`). */
  datatype Option<+T> = None | Some(value: T)

  /** Either a value or the exception that was raised instead. */
  datatype Result<+T, +E> = Success(value: T) | Failure(error: E)
}
